=== FILE: README.md ===
# SmartThermostat weather-station core in Dafny

This project models the data path of the SmartThermostat firmware's weather
station, written in C. The path runs from the two HTTP responses it fetches to
the label texts it shows. It also proves properties of that model.

- **Geolocation extractor.** `json_callback` matches the keys `loc`,
  `timezone` and `city` exactly. It splits `loc` at its first comma into
  latitude and longitude and copies each value into its fixed-size buffer.
- **Weather extractor.** `json_weather_cb` files five weather fields. It
  matches keys with `strncmp` bounded by the incoming key's length, so a key
  that is a prefix of a name also matches.
- **Payload wrappers.** `parse_json_payload` hands the parser the text up to
  the first `}`. `parse_json_weather_payload` clears four publish flags after
  every parse attempt.
- **Publishers.** `sync_temperature`, `sync_humidity`, `sync_windspeed`,
  `sync_rain`, `sync_location` and `sync_all_data` write label texts. The rain
  label is "Y" for sixteen precipitation weather codes and "N" otherwise.
- **Network time.** `month_str_to_index` and `sync_time` read the `Date`
  header once. They convert it from GMT to Indian Standard Time (IST), which
  is 5 h 30 min ahead, and show the hour, minute, day, month and weekday.
- **Display clock.** `clock_tick_cb` advances the synced time by the elapsed
  seconds. It always shows the hour and minute, and it rewrites the date
  labels when the day of the month changes.
- **Acquisition cycle.** `fetch_https_client_method` runs the geolocation
  request and then the weather request, building the weather path from the
  coordinates.

The model is functional. The buffers the firmware keeps as statics are an
immutable `Extracted` record, and the publish flags are a `Flags` record. The
clock state is a `ClockState`. Each operation is a function that returns the
new state and the `lv_label_set_text` calls it makes, as a sequence of
`LabelWrite(label, text)` values.

The JSON parser library is not part of this model. A run of it is a
`ParserRun`: the entries it hands to the callback, in order, and whether it
succeeded. The wrappers take the parser as a function from the text they pass
in to such a run.

Modules, one file each:

| module | file | contents |
|---|---|---|
| `CStrings` | cstrings.dfy | the C library routines the core relies on: `strchr`, `strpbrk`, `strstr`, `strncmp`, `snprintf("%.*s")`, `atoi`, `"%02d"` |
| `Calendar` | calendar.dfy | proleptic Gregorian arithmetic: days-from-civil, civil-from-days, `timegm`, `gmtime_r`, `mktime` in UTC |
| `State` | state.dfy | the extracted fields and their buffer sizes, the flags, the clock state, the labels |
| `JsonExtract` | json_extract.dfy | both callbacks, their folds over a parser run, both payload wrappers |
| `Publish` | publish.dfy | the five sensor and location publishers |
| `HttpDate` | http_date.dfy | `month_str_to_index`, the `Date` header extraction, the `sscanf` conversion, `sync_time` |
| `ClockTick` | clock_tick.dfy | `clock_tick_cb` |
| `Acquisition` | acquisition.dfy | `fetch_https_client_method`, the weather path, `sync_all_data` |
| `Scenarios` | scenarios.dfy | the worked time-sync example |

Several behaviours of the C code are easy to misread. The model keeps each
one as written, and the member named shows it:

- The publishers take their flag by value. The closing `flag = true` of each
  (secure_http_client.c:696, :705, :714, :739, :852) assigns the parameter and
  never reaches the module flag, so every publishing pass repeats the sensor
  and location writes (`Acquisition.PublishRepeats`).
- `syncedAll` starts true and is only ever set to false (secure_http_client.c:464).
  The `flag = true` at :867 again assigns a by-value parameter. So after the
  first weather request, publishing runs on every pass for the rest of the run
  (`Acquisition.SyncedAllStaysCleared`).
- The weather key test `strncmp(key, name, key_length) == 0`
  (secure_http_client.c:565-590) compares only as many characters as the key
  has, so any prefix of a name also matches it (`JsonExtract.WeatherKeyIsPrefix`).
- The four sensor flags are cleared after every weather parse of a non-empty
  payload, whether the parse succeeded or not (secure_http_client.c:679-682).
  A cycle whose weather request was sent, even one whose send failed, clears
  `syncedAll` (:464) (`JsonExtract.ParseJsonWeatherPayload`,
  `Acquisition.FetchHttpsClientMethod`).
- The coordinates are cut to 15 characters each, because their buffers hold
  16 bytes (`JsonExtract.LocSplitsAtFirstComma`, `JsonExtract.SplitLoc`).
- `sync_time` never assigns `sync_epoch_time`, which stays at its start-up
  value of 0. So the first tick after the start-up sync advances the anchor
  by the whole wall-clock value, not by the seconds since the sync
  (`ClockTick.FirstTickAfterStartupSync`).

## Model

| member | source | states |
|---|---|---|
| CStrings.Take | source/secure_http_client.c:795-796 | the result is a prefix of the input, with length min(length, n) |
| CStrings.FindFirstOf | source/secure_http_client.c:787 | `strpbrk`: the index found holds a character of the set and none before it does; no index means no such character at all |
| CStrings.FindChar | source/secure_http_client.c:527 | `strchr`: the index holds the character and no earlier index does; no index means the character is absent |
| CStrings.CStr | source/secure_http_client.c:596 | the text a `char *` designates is the prefix before the first NUL: NUL-free and ended by a NUL when shorter than the buffer |
| CStrings.BoundedCopy | source/secure_http_client.c:541-542 | `snprintf(dst, cap, "%.*s", ...)`: the stored field is a NUL-free prefix of the value whose length is min(C length of the value, cap - 1), so it always fits and is terminated |
| CStrings.StrnEq | source/secure_http_client.c:519-520 | `strncmp(a, b, n) == 0` holds exactly when the two C strings agree at each of the first `n` indices up to and including the first terminator of `a` |
| CStrings.StrnEqAgainstName | source/secure_http_client.c:519 | `strncmp(key, name, len(key)) == 0` for a NUL-free name holds exactly when the key is a prefix of the name, or when it holds the whole name followed by a NUL |
| CStrings.StrnEqExactLength | source/secure_http_client.c:519-520 | with the length test added, the key test holds exactly when the key equals the name |
| CStrings.FindSubstring | source/secure_http_client.c:782 | `strstr`: the index found starts an occurrence and no earlier index does; no index means no occurrence |
| CStrings.FindSubstringAt | source/secure_http_client.c:782 | an occurrence with none before it is the one `strstr` finds |
| CStrings.Atoi | source/secure_http_client.c:722 | `atoi` with a 32-bit `long`: the value read after white space and sign, saturated at the 32-bit bounds |
| CStrings.AtoiOfDecimal | source/secure_http_client.c:722 | `atoi` reads back the decimal text of every value from 0 to 2^31 - 1 |
| CStrings.Format02 | source/secure_http_client.c:824-826 | `snprintf(buf, 3, "%02d", n)` always stores two characters: two digits for a non-negative value, a leading '-' for a negative one |
| CStrings.Format02RoundTrip | source/secure_http_client.c:824-826 | `"%02d"` shows each value from 0 to 99 as two digits that read back as that value |
| Calendar.DaysFromCivilInjective | source/secure_http_client.c:818 | distinct valid dates have distinct day numbers |
| Calendar.CivilFromDays | source/secure_http_client.c:820 | the date of a day number is valid and has that day number |
| Calendar.CivilOfDays | source/secure_http_client.c:820 | civil-from-days inverts days-from-civil on valid dates |
| Calendar.NextDateIsNextDay | source/tft_task.c:110-117 | the calendar successor of a valid date is valid, has the next day number and a different day of the month |
| Calendar.FromSeconds | source/secure_http_client.c:820 | `gmtime_r`: the broken-down time is valid (fields in range, weekday consistent) and denotes the given second |
| Calendar.FromSecondsOfValid | source/secure_http_client.c:818-820 | `gmtime_r` undoes `timegm` on every valid broken-down time |
| Calendar.ToSecondsInRangeMonth | source/secure_http_client.c:818 | `timegm` of a time with an in-range month is its day number times 86400 plus its second of the day |
| Calendar.ToSecondsShift | source/tft_task.c:110-111 | adding seconds to the seconds field moves the instant `timegm` denotes by as many seconds |
| Calendar.ToSecondsInjective | source/secure_http_client.c:818 | two valid broken-down times that denote the same second are equal |
| Calendar.Normalize | source/tft_task.c:112 | `mktime` in UTC: the result is valid and denotes the same instant as its input |
| Calendar.NormalizeIdempotent | source/tft_task.c:112 | normalising twice is normalising once |
| Calendar.NormalizeValid | source/tft_task.c:112 | a valid broken-down time is its own normalisation |
| JsonExtract.KeyIsExact | source/secure_http_client.c:519-520 | the geolocation key test accepts a key exactly when it equals the name, on both length and bytes |
| JsonExtract.KeyMatchesPrefix | source/secure_http_client.c:565 | the weather key test accepts a NUL-free key exactly when it is a prefix of the name |
| JsonExtract.SplitLoc | source/secure_http_client.c:524-535 | the value is first copied into the 64-byte `temp`; without a comma in that copy nothing changes; with one, latitude is the text before its first comma and longitude the text after it, each cut to 15 characters, whatever the value's length; the other fields never change |
| JsonExtract.GeoCallback | source/secure_http_client.c:505-558 | `loc` splits the value, `timezone` and `city` store their bounded copy, and any other key changes nothing; the weather fields never change and all fields keep fitting |
| JsonExtract.LocSplitsAtFirstComma | source/secure_http_client.c:524-531 | a value "lat,lon" with a comma-free lat yields lat and lon, each cut to 15 characters |
| JsonExtract.LocExample | source/secure_http_client.c:523 | "12.9719,77.5937" yields latitude "12.9719" and longitude "77.5937" |
| JsonExtract.WeatherCallback | source/secure_http_client.c:560-593 | the weather callback never touches the geolocation fields and keeps every field within its buffer |
| JsonExtract.WeatherKeyIsPrefix | source/secure_http_client.c:565-590 | the value goes to the first field whose name the key is a prefix of, and `time` only for a string value; a key that is a prefix of no name changes nothing |
| JsonExtract.WeatherNamesLandInTheirFields | source/secure_http_client.c:565-590 | each of the five names the weather service sends lands in its own field; `time` does so only as a string |
| JsonExtract.FoldGeo | source/secure_http_client.c:627 | folding the geolocation callback over a parser run keeps the fields fitting and the weather fields unchanged |
| JsonExtract.FoldWeather | source/secure_http_client.c:664 | folding the weather callback over a parser run keeps the fields fitting and the geolocation fields unchanged |
| JsonExtract.FoldGeoLastWins | source/secure_http_client.c:538-549 | after a run, `timezone` and `city` hold the bounded copy of the last entry carrying that key |
| JsonExtract.FoldGeoKeepsUnnamed | source/secure_http_client.c:552-555 | a run without a `timezone`, `city` or `loc` entry leaves those fields as they were |
| JsonExtract.FoldWeatherLastWins | source/secure_http_client.c:565-590 | after a run, each of the five weather fields holds the bounded copy of the last entry named after it (`time` only as a string) when no later entry passes the same key test |
| JsonExtract.FoldWeatherRespectsWeather | source/secure_http_client.c:565-590 | the weather fields a run produces depend only on the weather fields it starts from |
| JsonExtract.ParseJsonPayload | source/secure_http_client.c:595-637 | an empty payload or one without `}` changes nothing; otherwise the parser gets exactly the text through the first `}`, the fields are the fold of its entries even when it then fails, and the outcome reports its success |
| JsonExtract.ParseJsonWeatherPayload | source/secure_http_client.c:639-685 | an empty payload or a failed allocation changes nothing; otherwise the whole payload is parsed and the temperature, humidity, wind and rain flags end false whether or not the parse succeeded; the location flag is never touched |
| Publish.IsRainCode | source/secure_http_client.c:725-732 | the chain of comparisons is membership in the set of sixteen precipitation codes |
| Publish.SyncTemperature | source/secure_http_client.c:691-698 | exactly one write of the temperature text when the flag argument is false, and none otherwise |
| Publish.SyncHumidity | source/secure_http_client.c:700-707 | exactly one write of the humidity text when the flag argument is false, and none otherwise |
| Publish.SyncWindspeed | source/secure_http_client.c:709-716 | exactly one write of the wind speed text when the flag argument is false, and none otherwise |
| Publish.SyncRain | source/secure_http_client.c:718-741 | with the flag false, one rain write whose text is "Y" when atoi of the weather code is a precipitation code and "N" otherwise; with the flag true, nothing |
| Publish.SyncLocation | source/secure_http_client.c:843-854 | exactly one write of the city's C text when the flag argument is false, and none otherwise |
| Publish.RainVerdictIgnoresSaturation | source/secure_http_client.c:722-732 | the saturation of `atoi` never changes the rain verdict |
| Publish.RainLabelForEveryCode | source/secure_http_client.c:718-741 | for the decimal text of every code up to 2^31 - 1, the label is "Y" exactly for the precipitation codes |
| Publish.NonNumericCodeIsDry | source/secure_http_client.c:722-738 | a weather code text that does not start with a number reads as 0 and shows "N" |
| HttpDate.MonthStrToIndex | source/secure_http_client.c:743-753 | the result is in 0..11: the first month whose abbreviation agrees on three characters, or 0 when none does |
| HttpDate.MonthIndexOfName | source/secure_http_client.c:743-753 | every abbreviation maps to its own index |
| HttpDate.MonthIndexOfWord | source/secure_http_client.c:805-811 | a word of at most three characters gets the index naming that very word when it is an abbreviation, and 0 otherwise |
| HttpDate.DateText | source/secure_http_client.c:779-798 | with no "Date:" in the header text the buffer stays empty; otherwise it holds the longest prefix without a line break of the text after the first "Date:" and its blanks, cut to 63 characters, and never a NUL |
| HttpDate.CopyLine | source/secure_http_client.c:787-797 | both branches of the copy give the longest prefix of the value without a line break, cut to 63 characters |
| HttpDate.DateTextOfHeaderLine | source/secure_http_client.c:782-792 | when the first "Date:" is followed by a blank and a one-line value that fits the buffer, the value is extracted exactly |
| HttpDate.ScanWord | source/secure_http_client.c:806 | `%3s`: after skipped white space, one to three non-space characters, read as far as the width or the next white space or the end allows; it fails exactly when only white space is left; the word and the rest make up the input without that white space |
| HttpDate.ScanInt | source/secure_http_client.c:806 | `%d`: fails exactly when no digit follows the white space and sign; otherwise the value is the one `strtol` would read |
| HttpDate.ScanIntRest | source/secure_http_client.c:806 | a successful `%d` consumes at least one character, reads only digits after the white space and sign, and stops at the first non-digit after the digits |
| HttpDate.ScanLiteral | source/secure_http_client.c:806 | an ordinary character of the format matches exactly when it is the next input character |
| HttpDate.ScanImfFixdate | source/secure_http_client.c:806-807 | the conversion assigns all six values exactly when the date part and then the time part match; text that is only white space never converts; the month word has one to three characters |
| HttpDate.ScanOfImfFixdate | source/secure_http_client.c:806-807 | the conversion reads every IMF-fixdate (section 7.1.1.1 of RFC 7231) back into its day, month name, year, hour, minute and second |
| HttpDate.ImfFixdateShape | source/secure_http_client.c:788 | an IMF-fixdate fits the 64-byte buffer, holds no line break or NUL and does not start with a blank |
| HttpDate.LocalTime | source/secure_http_client.c:818-820 | the stored local time is valid and lies exactly 19800 s after the GMT instant the header names |
| HttpDate.HeaderDate | source/secure_http_client.c:776-807 | a null header block converts nothing; a converted date comes from a non-empty extracted text and has a month word of one to three characters |
| HttpDate.GmtTm | source/secure_http_client.c:809-815 | the `struct tm` holds the year less 1900, the day, hour, minute and second as read, and the month index of the abbreviation read, January when the word is no abbreviation |
| HttpDate.SyncTime | source/secure_http_client.c:774-841 | once synced, or without a convertible header, nothing changes; otherwise the clock is synced to the local time of the header date and the hour, minute, day, month and weekday labels show it; `sync_epoch_time` and the last shown day are untouched |
| HttpDate.SyncTimeOnce | source/secure_http_client.c:776-777 | after a sync, later calls write nothing |
| HttpDate.HeaderDateOfImfFixdate | source/secure_http_client.c:800-815 | a header whose Date value is an IMF-fixdate converts to that date's fields, and the month name becomes its index |
| HttpDate.SyncTimeOfImfFixdate | source/secure_http_client.c:774-841 | such a header sets the clock to the `gmtime_r` of that instant plus 19800 s |
| Scenarios.SyncTimeExample | source/secure_http_client.c:774-841 | "Date: Mon, 01 Jan 2024 10:00:00 GMT" sets the clock to 15:30 on Monday, 1 January 2024, and shows "15", "30", "01", "Jan", "Mon" |
| ClockTick.Advance | source/tft_task.c:107-112 | the advanced anchor is valid and denotes the anchor plus the seconds elapsed since `sync_epoch_time` |
| ClockTick.Tick | source/tft_task.c:103-143 | unsynced: no change and no write; synced: the tick ends with the hour and minute of the advanced anchor; the date is written exactly when its day of the month differs from the last one shown, and then the anchor, `sync_epoch_time` and the last shown day are replaced; otherwise the state is unchanged and only the hour and minute are written |
| ClockTick.TickShowsClock | source/tft_task.c:136-142 | the hour and minute shown are those of the anchor plus the elapsed seconds |
| ClockTick.ClockLabelsReadBack | source/tft_task.c:137-142 | the clock labels are two digits each and read back as an hour in 0..23 and a minute in 0..59 |
| ClockTick.TickShowsDate | source/tft_task.c:116-134 | a date rewrite shows the day, month name and weekday of the instant, and the new anchor is a valid time denoting it |
| ClockTick.FirstTickShowsDate | source/tft_task.c:114-117 | the first tick after the sync always rewrites the date, because the last shown day starts at -1 |
| ClockTick.TickAgainAtSameInstant | source/tft_task.c:107-121 | a second tick at the same instant changes nothing and repeats only the hour and minute |
| ClockTick.NoDateWritesWithinDay | source/tft_task.c:116-121 | within the anchor's day no tick rewrites the date or changes the state |
| ClockTick.MidnightRollover | source/tft_task.c:110-134 | twenty seconds after 23:59:50 the tick shows 00:00 on the next calendar day and rewrites the date labels |
| ClockTick.FirstTickAfterStartupSync | source/tft_task.c:81 | since `sync_epoch_time` stays 0, the first tick after the start-up sync advances the anchor by the whole wall-clock value |
| Acquisition.WeatherPath | source/secure_http_client.c:437-439 | `snprintf` into 256 bytes: the path is the prefix of the formatted text whose length is the smaller of the text's length and 255 |
| Acquisition.WeatherPathWhole | source/secure_http_client.c:437-439 | coordinates that fit their 16-byte buffers are never cut, and the path is at most 156 characters |
| Acquisition.WeatherPathReadsBack | source/secure_http_client.c:439 | for coordinates without '&', the `latitude` and `longitude` parameters of the path read back as the coordinates |
| Acquisition.FetchHttpsClientMethod | source/secure_http_client.c:404-465 | a geolocation failure ends the cycle without touching fields, flags or `syncedAll`; a received geolocation response gives the fields of its parse; the weather request uses the path of the coordinates just parsed; a received weather response gives the fields and flags of the weather parse of those fields, and otherwise the flags stay as they were; `response` is the last one a send left behind; `syncedAll` is cleared exactly when the weather request was sent |
| Acquisition.CycleWeatherFields | source/secure_http_client.c:426-462 | after a cycle that received both responses, the weather fields are the weather report's fold over the fields held before the cycle, whatever the geolocation response held, and the geolocation fields are those of the geolocation parse |
| Acquisition.SyncAllData | source/secure_http_client.c:856-869 | with `syncedAll` true nothing happens; otherwise the four sensor publishers, `sync_time` on the last response's header and the location publisher write in that order, and only the clock may change |
| Acquisition.InitialDeviceSteady | source/secure_http_client.c:106-127 | the start-up state has empty fields that fit their buffers and all flags clear |
| Acquisition.FetchKeepsSteady | source/secure_http_client.c:679-682 | a cycle keeps the fields fitting and never sets a flag |
| Acquisition.SyncAllDataKeepsSteady | source/secure_http_client.c:867 | a publishing pass keeps the fields fitting and never sets a flag |
| Acquisition.SyncedAllStaysCleared | source/secure_http_client.c:464 | once `syncedAll` is false, no cycle or pass sets it again |
| Acquisition.SteadySensorWrites | source/secure_http_client.c:860-863 | with no flag set, the four sensor publishers write temperature, humidity, wind speed and the rain verdict |
| Acquisition.PublishRepeats | source/secure_http_client.c:856-869 | a second pass repeats the first pass's four sensor writes and its location write, and adds no clock writes |
| Acquisition.PassWrites | source/secure_http_client.c:856-869 | a steady pass writes the four sensors, then what `sync_time` writes, then the city, and leaves the fields, `response` and `syncedAll` as they were |
| Acquisition.SecondPassShowsNoClock | source/secure_http_client.c:776-777 | on the pass after a steady pass, `sync_time` writes nothing and the sensor writes are the same |

## Left out

- Transport. `wifi_connect` (secure_http_client.c:157-205), `configure_https_client` (:321-352), `send_http_request` (:236-305) and `http_request` (:480-499) are in the core file, but they only drive the Wi-Fi, TLS and HTTP client libraries, which are not part of this model. Each server exchange is an `Exchange` value: configure failed, connect failed, send failed, or received, together with the response object the send left behind. Disconnecting and releasing the client are not modelled.
- What `send_http_request` reports. It returns the status of `cy_http_client_delete` (:300-304), not that of the send. So a failed send can still be reported as success, and the caller then parses whatever `response` holds. `Received` leaves its response unconstrained, so the model covers this case, but it does not tell a real response from a stale one.
- Acquisition.FetchHttpsClientMethod: its list of requests leaves out the retry after a failed send. `send_http_request` then calls `http_request()` (secure_http_client.c:272), which sends `GEO_PATH` again, also during the weather stage, to whichever server the client is connected to. The effect of that retry on `response` is covered by the unconstrained response of the `Exchange`.
- The JSON parser's own scanning. It is the `parser` parameter, which yields the entries in order and a success bit. Registering a callback is taken to succeed. A NULL object or key passed to a callback is not modelled, because the entries always carry a key.
- The display. Every `lv_label_set_text` call is a `LabelWrite`; nothing is rendered.
- `time(NULL)` and `difftime`. They are the parameter `now` of `ClockTick.Tick`, in seconds.
- The float offset `IST` = 5.5. It is the exact integer 19800 s, which is the value `(int)(5.5 * 3600)` gives.
- `timegm`'s save and restore of `TZ`. The conversion is `Calendar.ToSeconds`. The `mktime` in `clock_tick_cb` is `Calendar.Normalize` in UTC, which assumes no `TZ` is set on the target.
- HttpDate.ScanInt: the `%d` values are unbounded integers. A number that overflows `int` is undefined behaviour in C and is not modelled.
- ClockTick.Tick: the `(int)` cast of the elapsed seconds and the `int` overflow of `tm_sec` are not modelled. The elapsed time is an unbounded integer.
- Calendar.Normalize: it is defined for every integer year. The range limits of `time_t`, and `mktime`'s error return, are not modelled.
- Acquisition.SyncAllData: it requires the fields to fit their buffers. This is the state every run keeps (`Acquisition.Steady`), and it guarantees the 16-byte city fits the 40-byte buffer of `sync_location`.
- The response header and the geolocation body are read as C strings, up to their first NUL. `parse_json_payload` takes no length, and its call at secure_http_client.c:430 passes only `response.body`, so `JsonExtract.ParseJsonPayload` reads `CStr(payload)` and ignores `body_len`. The buffer size of the HTTP client is not modelled.
- Concurrency. The network task and the display task share the globals without locking. Each operation is modelled as atomic, and the task loops, delays and scheduling are left out.
- `tft_task`, `graphics_init`, `st7789v_init`, `lvgl_support.c` and `main.c`. These are display driver, task set-up and boot code.

=== FILE: acquisition.dfy ===
/**
 The acquisition cycle of fetch_https_client_method and the publishing pass
 of sync_all_data, over the state the two tasks share.

 The transport (configure_https_client, cy_http_client_connect,
 send_http_request with its retry) is not modelled: each server exchange is
 given as its outcome, together with what the HTTP client's response object
 holds afterwards.
 */
module Acquisition {
  import opened CStrings
  import opened State
  import opened JsonExtract
  import opened Publish
  import opened HttpDate

  /** The response object: the header block (a null pointer until a response arrives) and the body bytes. */
  datatype Response = Response(header: Option<string>, body: string)

  /** How far one server exchange got, and the response object a send left behind. */
  datatype Exchange =
    | ConfigureFailed
    | ConnectFailed
    | SendFailed(left: Response)
    | Received(response: Response)

  /** A request the cycle sent: host, port and resource path. */
  datatype Request = Request(host: string, port: int, path: string)

  const GeoHost: string := "ipinfo.io"
  const GeoPort: int := 80
  const GeoPath: string := "/json"
  const WeatherHost: string := "api.open-meteo.com"
  const WeatherPort: int := 80

  /** The `weather_path` buffer. */
  const WeatherPathCap: nat := 256

  /** The format of the weather path, cut at its two `%s` directives. */
  const LatitudeParam: string := "/v1/forecast?latitude="
  const LongitudeParam: string := "&longitude="
  const CurrentQuery: string := "&models=ukmo_seamless" + "&current=temperature_2m,relative_humidity_2m,wind_speed_10m,weather_code"

  /** The state the cycle reads and writes: the extracted fields, the publish flags, the clock, syncedAll and the response object. */
  datatype Device = Device(fields: Extracted, flags: Flags, clock: ClockState, syncedAll: bool, response: Response)

  /** Start-up: zeroed buffers, clear flags, an unsynced clock, syncedAll true, no response yet. */
  const InitialDevice: Device := Device(NoFields, InitialFlags, InitialClock, true, Response(None, ""))

  /** The weather path with both coordinates filled in, before the buffer limit applies. */
  function WeatherPathText(lat: string, lon: string): string {
    LatitudeParam + (lat + (LongitudeParam + (lon + CurrentQuery)))
  }

  /**
   snprintf(weather_path, 256, ..., latitude, longitude): each `%s` copies its
   C string, and the result is cut to the 255 characters the buffer holds.
   */
  function WeatherPath(lat: string, lon: string): (p: string)
    ensures |p| < WeatherPathCap
    ensures p <= WeatherPathText(CStr(lat), CStr(lon))
    ensures |p| == Min(|WeatherPathText(CStr(lat), CStr(lon))|, WeatherPathCap - 1)
  {
    Take(WeatherPathText(CStr(lat), CStr(lon)), WeatherPathCap - 1)
  }

  /** Coordinates that fit their 16-byte buffers leave the weather path uncut. */
  lemma WeatherPathWhole(lat: string, lon: string)
    requires FitsIn(lat, LatitudeCap) && FitsIn(lon, LongitudeCap)
    ensures WeatherPath(lat, lon) == WeatherPathText(lat, lon)
    ensures |WeatherPath(lat, lon)| <= 156
  {
    CStrOfNulFree(lat);
    CStrOfNulFree(lon);
    assert |LatitudeParam| == 22 && |LongitudeParam| == 11 && |CurrentQuery| == 93;
  }

  /** In a text `a + b` where `b` starts with '&' and `a` has none, the first '&' ends `a`. */
  lemma FirstAmpersand(a: string, b: string)
    requires '&' !in a && b != [] && b[0] == '&'
    ensures FindChar(a + b, '&') == Some(|a|) && (a + b)[..|a|] == a
  {
    assert (a + b)[..|a|] == a;
    assert (a + b)[|a|] == '&';
    FindFirstOfAt(a + b, {'&'}, |a|);
  }

  /**
   The server reads the coordinates back: for coordinates without '&', the
   latitude parameter's value runs up to the first '&' after it and is the
   latitude, and likewise for the longitude.
   */
  lemma WeatherPathReadsBack(lat: string, lon: string)
    requires '&' !in lat && '&' !in lon
    ensures var q := WeatherPathText(lat, lon)[|LatitudeParam|..];
            FindChar(q, '&') == Some(|lat|) && q[..|lat|] == lat
    ensures var q := WeatherPathText(lat, lon)[|LatitudeParam| + |lat| + |LongitudeParam|..];
            FindChar(q, '&') == Some(|lon|) && q[..|lon|] == lon
  {
    var rest := LongitudeParam + (lon + CurrentQuery);
    assert WeatherPathText(lat, lon)[|LatitudeParam|..] == lat + rest;
    assert rest[0] == '&';
    FirstAmpersand(lat, rest);
    assert WeatherPathText(lat, lon)[|LatitudeParam| + |lat| + |LongitudeParam|..] == lon + CurrentQuery;
    assert CurrentQuery[0] == '&';
    FirstAmpersand(lon, CurrentQuery);
  }

  /** What one cycle did: the state afterwards and the requests it sent, in order. */
  datatype Cycle = Cycle(device: Device, requests: seq<Request>)

  /** The weather stage was reached and its request sent. */
  predicate WeatherSent(geo: Exchange, weather: Exchange) {
    geo.Received? && (weather.SendFailed? || weather.Received?)
  }

  /**
   fetch_https_client_method: the geolocation request, its JSON parsed on
   success; then the weather path built from the coordinates now held, the
   weather request, its JSON parsed on success. A failure to configure,
   connect or send on the geolocation server, or to configure or connect
   on the weather server, ends the cycle early; only a cycle that got as
   far as sending the weather request clears syncedAll.
   */
  function FetchHttpsClientMethod(dev: Device, geo: Exchange, weather: Exchange,
                                  geoParser: string -> ParserRun, weatherParser: string -> ParserRun,
                                  mallocOk: bool): (r: Cycle)
    ensures Fits(dev.fields) ==> Fits(r.device.fields)
    ensures r.device.clock == dev.clock
    ensures r.device.flags.location == dev.flags.location
    ensures r.device.syncedAll <==> dev.syncedAll && !WeatherSent(geo, weather)
    ensures |r.requests| <= 2
    ensures |r.requests| >= 1 <==> geo.SendFailed? || geo.Received?
    ensures |r.requests| >= 1 ==> r.requests[0] == Request(GeoHost, GeoPort, GeoPath)
    ensures |r.requests| == 2 <==> WeatherSent(geo, weather)
    ensures !geo.Received? ==> r.device.fields == dev.fields && r.device.flags == dev.flags
    ensures geo.Received? ==> SameGeo(r.device.fields, ParseJsonPayload(dev.fields, geo.response.body, geoParser).fields)
    ensures |r.requests| == 2 ==>
      r.requests[1] == Request(WeatherHost, WeatherPort, WeatherPath(r.device.fields.latitude, r.device.fields.longitude))
    ensures r.device.flags != dev.flags ==> weather.Received? && WeatherSent(geo, weather)
    ensures geo.Received? && !weather.Received? ==>
      r.device.fields == ParseJsonPayload(dev.fields, geo.response.body, geoParser).fields && r.device.flags == dev.flags
    ensures geo.Received? && weather.Received? ==>
      var w := ParseJsonWeatherPayload(ParseJsonPayload(dev.fields, geo.response.body, geoParser).fields,
                                       dev.flags, weather.response.body, mallocOk, weatherParser);
      r.device.fields == w.fields && r.device.flags == w.flags
    ensures geo.ConfigureFailed? || geo.ConnectFailed? ==> r.device.response == dev.response
    ensures geo.SendFailed? ==> r.device.response == geo.left
    ensures geo.Received? && (weather.ConfigureFailed? || weather.ConnectFailed?) ==> r.device.response == geo.response
    ensures geo.Received? && weather.SendFailed? ==> r.device.response == weather.left
    ensures geo.Received? && weather.Received? ==> r.device.response == weather.response
  {
    match geo
    case ConfigureFailed => Cycle(dev, [])
    case ConnectFailed => Cycle(dev, [])
    case SendFailed(left) => Cycle(dev.(response := left), [Request(GeoHost, GeoPort, GeoPath)])
    case Received(geoResponse) =>
      var fields := ParseJsonPayload(dev.fields, geoResponse.body, geoParser).fields;
      var afterGeo := dev.(fields := fields, response := geoResponse);
      var path := WeatherPath(fields.latitude, fields.longitude);
      var sent := [Request(GeoHost, GeoPort, GeoPath), Request(WeatherHost, WeatherPort, path)];
      match weather
      case ConfigureFailed => Cycle(afterGeo, [Request(GeoHost, GeoPort, GeoPath)])
      case ConnectFailed => Cycle(afterGeo, [Request(GeoHost, GeoPort, GeoPath)])
      case SendFailed(left) => Cycle(afterGeo.(response := left, syncedAll := false), sent)
      case Received(weatherResponse) =>
        var w := ParseJsonWeatherPayload(fields, dev.flags, weatherResponse.body, mallocOk, weatherParser);
        Cycle(afterGeo.(fields := w.fields, flags := w.flags, response := weatherResponse, syncedAll := false), sent)
  }

  /**
   After a cycle that received both responses, the weather fields are those
   the weather report alone produces from the fields held before the cycle,
   whatever the geolocation response held, and the geolocation fields are
   those of the geolocation parse.
   */
  lemma CycleWeatherFields(dev: Device, geo: Exchange, weather: Exchange,
                           geoParser: string -> ParserRun, weatherParser: string -> ParserRun, mallocOk: bool)
    requires geo.Received? && weather.Received? && weather.response.body != [] && mallocOk
    ensures var f := FetchHttpsClientMethod(dev, geo, weather, geoParser, weatherParser, mallocOk).device.fields;
            && SameWeather(f, FoldWeather(dev.fields, weatherParser(weather.response.body).entries))
            && SameGeo(f, ParseJsonPayload(dev.fields, geo.response.body, geoParser).fields)
  {
    var g := ParseJsonPayload(dev.fields, geo.response.body, geoParser).fields;
    FoldWeatherRespectsWeather(g, dev.fields, weatherParser(weather.response.body).entries);
  }

  /** What one publishing pass did: the state afterwards and the label writes, in order. */
  datatype Pass = Pass(device: Device, writes: seq<LabelWrite>)

  /** The writes of the four sensor publishers, in the order sync_all_data calls them. */
  function SensorWrites(dev: Device): seq<LabelWrite> {
    SyncTemperature(dev.flags.temperature, dev.fields.temperature)
      + SyncHumidity(dev.flags.humidity, dev.fields.humidity)
      + SyncWindspeed(dev.flags.wind, dev.fields.windSpeed)
      + SyncRain(dev.flags.rain, dev.fields.weatherCode)
  }

  /**
   sync_all_data(syncedAll): with the flag false, the four sensor
   publishers, sync_time on the header block of the last response, and the
   location publisher run in turn. The flag is passed by value, so the
   closing `flag = true` leaves syncedAll as it was.
   */
  function SyncAllData(dev: Device): (r: Pass)
    requires Fits(dev.fields)
    ensures r.device == dev.(clock := r.device.clock)
    ensures dev.syncedAll ==> r == Pass(dev, [])
    ensures !dev.syncedAll ==>
      var time := SyncTime(dev.clock, dev.response.header);
      && r.device.clock == time.clock
      && r.writes == SensorWrites(dev) + time.writes + SyncLocation(dev.flags.location, dev.fields.city)
  {
    if dev.syncedAll then Pass(dev, [])
    else
      var time := SyncTime(dev.clock, dev.response.header);
      Pass(dev.(clock := time.clock),
           SensorWrites(dev) + time.writes + SyncLocation(dev.flags.location, dev.fields.city))
  }

  // ---------------------------------------------------------------------------
  // What holds across cycles and passes
  // ---------------------------------------------------------------------------

  /** The state every run keeps: the fields fit their buffers and no publish flag is ever set. */
  predicate Steady(dev: Device) {
    Fits(dev.fields) && dev.flags == InitialFlags
  }

  lemma InitialDeviceSteady()
    ensures Steady(InitialDevice)
  {
    assert NUL !in "";
  }

  /** A cycle keeps the state steady: the weather wrapper only ever clears flags. */
  lemma FetchKeepsSteady(dev: Device, geo: Exchange, weather: Exchange,
                         geoParser: string -> ParserRun, weatherParser: string -> ParserRun, mallocOk: bool)
    requires Steady(dev)
    ensures Steady(FetchHttpsClientMethod(dev, geo, weather, geoParser, weatherParser, mallocOk).device)
  {
  }

  /** A publishing pass keeps the state steady. */
  lemma SyncAllDataKeepsSteady(dev: Device)
    requires Steady(dev)
    ensures Steady(SyncAllData(dev).device)
  {
  }

  /** Once a cycle has sent the weather request, syncedAll is false for good: no cycle or pass sets it again. */
  lemma SyncedAllStaysCleared(dev: Device, geo: Exchange, weather: Exchange,
                              geoParser: string -> ParserRun, weatherParser: string -> ParserRun, mallocOk: bool)
    requires Fits(dev.fields) && !dev.syncedAll
    ensures !FetchHttpsClientMethod(dev, geo, weather, geoParser, weatherParser, mallocOk).device.syncedAll
    ensures !SyncAllData(dev).device.syncedAll
  {
  }

  /**
   With no flag ever set, each sensor publisher writes its label on every
   pass: temperature, humidity and wind show their text, and the rain label
   the verdict on the weather code.
   */
  lemma SteadySensorWrites(dev: Device)
    requires Steady(dev)
    ensures SensorWrites(dev) == [
      LabelWrite(Temperature, dev.fields.temperature),
      LabelWrite(Humidity, dev.fields.humidity),
      LabelWrite(WindSpeed, dev.fields.windSpeed),
      LabelWrite(Rain, if Atoi(dev.fields.weatherCode) in RainCodes then "Y" else "N")]
  {
  }

  /**
   So a second pass repeats the sensor and location writes of the first; it
   differs only in the clock labels, which sync_time writes at most once.
   */
  lemma PublishRepeats(dev: Device)
    requires Steady(dev) && !dev.syncedAll
    ensures var r1 := SyncAllData(dev);
            var r2 := SyncAllData(r1.device);
            var n1 := |r1.writes|;
            var n2 := |r2.writes|;
            && n1 >= 5 && n2 == 5
            && r2.writes[..4] == r1.writes[..4]
            && r2.writes[4] == r1.writes[n1 - 1] == LabelWrite(Location, dev.fields.city)
  {
    var r1 := SyncAllData(dev);
    PassWrites(dev);
    PassWrites(r1.device);
    SecondPassShowsNoClock(dev);
    SteadySensorWrites(dev);
    RepeatedPassShape(SensorWrites(dev), SyncTime(dev.clock, dev.response.header).writes,
                      LabelWrite(Location, dev.fields.city));
  }

  /** Four writes, then any, then one, against the same four and the same one. */
  lemma RepeatedPassShape(sensors: seq<LabelWrite>, clock: seq<LabelWrite>, loc: LabelWrite)
    requires |sensors| == 4
    ensures var w1 := sensors + clock + [loc];
            var w2 := sensors + [] + [loc];
            && |w1| >= 5 && |w2| == 5
            && w2[..4] == w1[..4] && w2[4] == w1[|w1| - 1] == loc
  {
    var w1 := sensors + clock + [loc];
    assert w1[..4] == sensors;
  }

  /** A steady pass writes the sensors, then whatever sync_time writes, then the city. */
  lemma PassWrites(dev: Device)
    requires Steady(dev) && !dev.syncedAll
    ensures SyncAllData(dev).writes
         == SensorWrites(dev) + SyncTime(dev.clock, dev.response.header).writes + [LabelWrite(Location, dev.fields.city)]
    ensures Steady(SyncAllData(dev).device) && !SyncAllData(dev).device.syncedAll
    ensures SyncAllData(dev).device.fields == dev.fields && SyncAllData(dev).device.response == dev.response
  {
    CStrOfNulFree(dev.fields.city);
  }

  /** The second pass's sync_time writes nothing. */
  lemma SecondPassShowsNoClock(dev: Device)
    requires Steady(dev) && !dev.syncedAll
    ensures SyncTime(SyncAllData(dev).device.clock, dev.response.header).writes == []
    ensures SensorWrites(SyncAllData(dev).device) == SensorWrites(dev)
  {
    SyncTimeOnce(dev.clock, dev.response.header, dev.response.header);
  }
}

=== FILE: calendar.dfy ===
/**
 Proleptic Gregorian calendar arithmetic in UTC: the integer core of
 timegm, mktime (in a zone without offset or daylight saving) and
 gmtime_r, over unbounded integers. Day numbers count from 1970-01-01.
 */
module Calendar {

  const SecondsPerDay: int := 86400
  /** Days in a 400-year Gregorian cycle. */
  const DaysPerEra: int := 146097
  /** Days from 0000-01-01 to 1970-01-01. */
  const EpochDayFromYear0: int := 719528

  /** A calendar date with a 1-based month. */
  datatype Date = Date(year: int, month: int, day: int)

  /**
   The broken-down time of C's `struct tm`: `year` counts from 1900, `mon`
   from 0 (January), `wday` from 0 (Sunday). Other members play no part.
   */
  datatype Tm = Tm(year: int, mon: int, mday: int, hour: int, min: int, sec: int, wday: int)

  predicate IsLeapYear(y: int) {
    y % 4 == 0 && (y % 100 != 0 || y % 400 == 0)
  }

  function DaysInYear(y: int): int {
    if IsLeapYear(y) then 366 else 365
  }

  function DaysInMonth(y: int, m: int): int
    requires 1 <= m <= 12
  {
    if m == 2 then (if IsLeapYear(y) then 29 else 28)
    else if m == 4 || m == 6 || m == 9 || m == 11 then 30
    else 31
  }

  /**
   Days of year `y` before the first of month `m`; month 13 stands for the
   next year's start. From March on, the months of 31, 30, 31, 30, 31 days
   repeat, which gives the closed form (153 * (m - 3) + 2) / 5 after the
   59 or 60 days of January and February.
   */
  function DaysBeforeMonth(y: int, m: int): int
    requires 1 <= m <= 13
  {
    if m <= 2 then 31 * (m - 1)
    else (153 * (m - 3) + 2) / 5 + 59 + (if IsLeapYear(y) then 1 else 0)
  }

  /** Days from the start of a 400-year cycle to the start of its year `r` (the cycle begins with a leap year). */
  function DaysBeforeYearInEra(r: int): int
    requires 0 <= r <= 400
  {
    365 * r + (r + 3) / 4 - (r + 99) / 100 + (r + 399) / 400
  }

  /** Days from 1970-01-01 to January 1st of year `y`. */
  function DaysBeforeYear(y: int): int {
    DaysPerEra * (y / 400) + DaysBeforeYearInEra(y % 400) - EpochDayFromYear0
  }

  predicate ValidDate(d: Date) {
    1 <= d.month <= 12 && 1 <= d.day <= DaysInMonth(d.year, d.month)
  }

  /** The day number of a date (days-from-civil). */
  function DaysFromCivil(d: Date): int
    requires 1 <= d.month <= 12
  {
    DaysBeforeYear(d.year) + DaysBeforeMonth(d.year, d.month) + d.day - 1
  }

  /** 1970-01-01 was a Thursday; Sunday is 0. */
  function WeekdayOfDay(z: int): int {
    (z + 4) % 7
  }

  // ---------------------------------------------------------------------------
  // Facts about year and month lengths
  // ---------------------------------------------------------------------------

  lemma LeapYearPeriodic(q: int, r: int)
    ensures IsLeapYear(400 * q + r) == IsLeapYear(r)
  {
    DivModOf(400 * q + r, 4, 100 * q + r / 4, r % 4);
    DivModOf(400 * q + r, 100, 4 * q + r / 100, r % 100);
    DivModOf(400 * q + r, 400, q + r / 400, r % 400);
  }

  lemma YearInEraLength(r: int)
    requires 0 <= r < 400
    ensures DaysBeforeYearInEra(r + 1) - DaysBeforeYearInEra(r) == DaysInYear(r)
  {
    assert (r + 4) / 4 - (r + 3) / 4 == (if r % 4 == 0 then 1 else 0);
    assert (r + 100) / 100 - (r + 99) / 100 == (if r % 100 == 0 then 1 else 0);
    assert (r + 400) / 400 - (r + 399) / 400 == (if r % 400 == 0 then 1 else 0);
  }

  lemma DivModOf(n: int, k: int, q: int, o: int)
    requires k > 0 && n == k * q + o && 0 <= o < k
    ensures n / k == q && n % k == o
  {
    var q', o' := n / k, n % k;
    assert k * q' + o' == n && 0 <= o' < k;
    assert k * (q - q') == o' - o by {
      assert k * (q - q') == k * q - k * q';
    }
    if q' < q {
      assert k * (q - q') >= k by { MulAtLeast(k, q - q'); }
    } else if q < q' {
      assert k * (q' - q) >= k by { MulAtLeast(k, q' - q); }
    }
  }

  lemma MulAtLeast(k: int, a: int)
    requires k > 0 && a >= 1
    ensures k * a >= k
  {
    assert k * a == k * (a - 1) + k;
    if a > 1 { MulAtLeast(k, a - 1); }
  }

  /** A year has as many days as the gap between its January 1st and the next. */
  lemma YearLength(y: int)
    ensures DaysBeforeYear(y + 1) - DaysBeforeYear(y) == DaysInYear(y)
  {
    var q, r := y / 400, y % 400;
    LeapYearPeriodic(q, r);
    YearInEraLength(r);
    if r < 399 {
      DivModOf(y + 1, 400, q, r + 1);
    } else {
      DivModOf(y + 1, 400, q + 1, 0);
    }
  }

  lemma MonthLength(y: int, m: int)
    requires 1 <= m <= 12
    ensures DaysBeforeMonth(y, m + 1) - DaysBeforeMonth(y, m) == DaysInMonth(y, m)
  {
  }

  lemma {:induction false} EraYearsIncrease(a: int, b: int)
    requires 0 <= a < b <= 400
    ensures DaysBeforeYearInEra(a) + 365 * (b - a) <= DaysBeforeYearInEra(b)
    decreases b - a
  {
    YearInEraLength(a);
    if a + 1 < b {
      EraYearsIncrease(a + 1, b);
    }
  }

  lemma EraYearsAtMost366(r: int)
    requires 0 <= r <= 400
    ensures DaysBeforeYearInEra(r) <= 366 * r
  {
  }

  // ---------------------------------------------------------------------------
  // civil-from-days
  // ---------------------------------------------------------------------------

  /** The year of a 400-year cycle in which day `rem` of the cycle falls, searched upward from `r`. */
  function YearOfEra(rem: int, r: int): (y: int)
    requires 0 <= rem < DaysPerEra && 0 <= r < 400
    requires DaysBeforeYearInEra(r) <= rem
    ensures r <= y < 400
    ensures DaysBeforeYearInEra(y) <= rem < DaysBeforeYearInEra(y + 1)
    decreases 400 - r
  {
    if rem < DaysBeforeYearInEra(r + 1) then r
    else
      assert DaysBeforeYearInEra(400) == DaysPerEra;
      YearOfEra(rem, r + 1)
  }

  /** The month of year `y` in which day `doy` (0-based) of the year falls, searched upward from `m`. */
  function MonthOfYear(y: int, doy: int, m: int): (r: int)
    requires 1 <= m <= 12
    requires DaysBeforeMonth(y, m) <= doy < DaysInYear(y)
    ensures m <= r <= 12
    ensures DaysBeforeMonth(y, r) <= doy < DaysBeforeMonth(y, r + 1)
    decreases 12 - m
  {
    if doy < DaysBeforeMonth(y, m + 1) then m else MonthOfYear(y, doy, m + 1)
  }

  /** The date the 400-year-cycle algorithm computes for day number `z`. */
  function EraCivilFromDays(z: int): (d: Date)
    ensures ValidDate(d)
    ensures DaysFromCivil(d) == z
  {
    var n := z + EpochDayFromYear0;
    var q := n / DaysPerEra;
    var rem := n % DaysPerEra;
    EraYearsAtMost366(rem / 366);
    var r := YearOfEra(rem, rem / 366);
    var y := 400 * q + r;
    DivModOf(y, 400, q, r);
    LeapYearPeriodic(q, r);
    YearInEraLength(r);
    var doy := rem - DaysBeforeYearInEra(r);
    var m := MonthOfYear(y, doy, 1);
    MonthLength(y, m);
    Date(y, m, doy - DaysBeforeMonth(y, m) + 1)
  }

  /**
   The date of a day number: the one valid date whose day number it is
   (EraCivilFromDays computes it, and DaysFromCivil is injective on valid
   dates, so it is unique).
   */
  function CivilFromDays(z: int): (d: Date)
    ensures ValidDate(d)
    ensures DaysFromCivil(d) == z
  {
    CivilFromDaysExists(z);
    DaysFromCivilUnique();
    var d :| ValidDate(d) && DaysFromCivil(d) == z; d
  }

  /** Every day number is the day number of some valid date. */
  lemma CivilFromDaysExists(z: int)
    ensures exists d :: ValidDate(d) && DaysFromCivil(d) == z
  {
    var d := EraCivilFromDays(z);
    assert ValidDate(d) && DaysFromCivil(d) == z;
  }

  /** DaysFromCivil, quantified: distinct valid dates have distinct day numbers. */
  lemma DaysFromCivilUnique()
    ensures forall a: Date, b: Date {:trigger DaysFromCivil(a), DaysFromCivil(b)} ::
      ValidDate(a) && ValidDate(b) && DaysFromCivil(a) == DaysFromCivil(b) ==> a == b
  {
    forall a: Date, b: Date | ValidDate(a) && ValidDate(b) && DaysFromCivil(a) == DaysFromCivil(b)
      ensures a == b
    {
      DaysFromCivilInjective(a, b);
    }
  }

  /** January 1st moves forward at least 365 days per year. */
  lemma {:induction false} YearsIncrease(a: int, b: int)
    requires a < b
    ensures DaysBeforeYear(a) + 365 * (b - a) <= DaysBeforeYear(b)
    decreases b - a
  {
    YearLength(a);
    if a + 1 < b {
      YearsIncrease(a + 1, b);
    }
  }

  /** Every day of a valid date lies before the next year's January 1st. */
  lemma DateWithinYear(d: Date)
    requires ValidDate(d)
    ensures DaysBeforeYear(d.year) <= DaysFromCivil(d) < DaysBeforeYear(d.year + 1)
  {
    YearLength(d.year);
    MonthLength(d.year, d.month);
    assert DaysBeforeMonth(d.year, d.month + 1) <= DaysBeforeMonth(d.year, 13);
  }

  /** Valid dates with equal day numbers lie in the same year. */
  lemma SameYearOfDayNumber(a: Date, b: Date)
    requires ValidDate(a) && ValidDate(b)
    requires DaysFromCivil(a) == DaysFromCivil(b)
    ensures a.year == b.year
  {
    DateWithinYear(a);
    DateWithinYear(b);
    if a.year < b.year {
      YearsIncrease(a.year + 1, b.year + 1);
    } else if b.year < a.year {
      YearsIncrease(b.year + 1, a.year + 1);
    }
  }

  /** Within a year, the first of a later month comes no earlier than the end of an earlier one. */
  lemma MonthsIncrease(y: int, m1: int, m2: int)
    requires 1 <= m1 < m2 <= 13
    ensures DaysBeforeMonth(y, m1 + 1) <= DaysBeforeMonth(y, m2)
  {
  }

  /** Two valid dates of one year with equal day numbers are the same date. */
  lemma SameDateInYear(a: Date, b: Date)
    requires ValidDate(a) && ValidDate(b) && a.year == b.year
    requires DaysFromCivil(a) == DaysFromCivil(b)
    ensures a == b
  {
    MonthLength(a.year, a.month);
    MonthLength(a.year, b.month);
    if a.month < b.month {
      MonthsIncrease(a.year, a.month, b.month);
    } else if b.month < a.month {
      MonthsIncrease(a.year, b.month, a.month);
    }
  }

  /** Equal day numbers mean equal valid dates: DaysFromCivil is injective. */
  lemma DaysFromCivilInjective(a: Date, b: Date)
    requires ValidDate(a) && ValidDate(b)
    requires DaysFromCivil(a) == DaysFromCivil(b)
    ensures a == b
  {
    SameYearOfDayNumber(a, b);
    SameDateInYear(a, b);
  }

  /** Every valid date is the date of its own day number. */
  lemma CivilOfDays(d: Date)
    requires ValidDate(d)
    ensures CivilFromDays(DaysFromCivil(d)) == d
  {
    DaysFromCivilInjective(CivilFromDays(DaysFromCivil(d)), d);
  }

  /** The calendar successor of a valid date. */
  function NextDate(d: Date): Date
    requires ValidDate(d)
  {
    if d.day < DaysInMonth(d.year, d.month) then Date(d.year, d.month, d.day + 1)
    else if d.month < 12 then Date(d.year, d.month + 1, 1)
    else Date(d.year + 1, 1, 1)
  }

  lemma NextDateSameMonth(d: Date)
    requires ValidDate(d) && d.day < DaysInMonth(d.year, d.month)
    ensures ValidDate(NextDate(d))
    ensures DaysFromCivil(NextDate(d)) == DaysFromCivil(d) + 1
  {
  }

  lemma NextDateNextMonth(d: Date)
    requires ValidDate(d) && d.day == DaysInMonth(d.year, d.month) && d.month < 12
    ensures ValidDate(NextDate(d))
    ensures DaysFromCivil(NextDate(d)) == DaysFromCivil(d) + 1
  {
    MonthLength(d.year, d.month);
  }

  lemma NextDateNextYear(d: Date)
    requires ValidDate(d) && d.day == DaysInMonth(d.year, d.month) && d.month == 12
    ensures ValidDate(NextDate(d))
    ensures DaysFromCivil(NextDate(d)) == DaysFromCivil(d) + 1
  {
    YearLength(d.year);
    assert DaysFromCivil(d) == DaysBeforeYear(d.year) + DaysInYear(d.year) - 1;
  }

  /** The successor is valid, one day later, and never shares the day of the month. */
  lemma NextDateIsNextDay(d: Date)
    requires ValidDate(d)
    ensures ValidDate(NextDate(d))
    ensures DaysFromCivil(NextDate(d)) == DaysFromCivil(d) + 1
    ensures NextDate(d).day != d.day
    ensures CivilFromDays(DaysFromCivil(d) + 1) == NextDate(d)
  {
    if d.day < DaysInMonth(d.year, d.month) {
      NextDateSameMonth(d);
    } else if d.month < 12 {
      NextDateNextMonth(d);
    } else {
      NextDateNextYear(d);
    }
    var n := NextDate(d);
    assert n.day != d.day;
    CivilOfDays(n);
    assert CivilFromDays(DaysFromCivil(n)) == n;
  }

  // ---------------------------------------------------------------------------
  // struct tm and seconds
  // ---------------------------------------------------------------------------

  /** The day number of the date a broken-down time with an in-range month names. */
  function DayOf(t: Tm): int
    requires 0 <= t.mon <= 11
  {
    DaysFromCivil(Date(t.year + 1900, t.mon + 1, t.mday))
  }

  /** A broken-down time as gmtime_r produces it: every field in range and the weekday consistent. */
  predicate ValidTm(t: Tm) {
    && 0 <= t.mon <= 11
    && ValidDate(Date(t.year + 1900, t.mon + 1, t.mday))
    && 0 <= t.hour <= 23 && 0 <= t.min <= 59 && 0 <= t.sec <= 59
    && t.wday == WeekdayOfDay(DayOf(t))
  }

  /**
   timegm: the seconds since 1970-01-01 00:00:00 UTC a broken-down time
   denotes. Out-of-range fields carry into the next larger unit as mktime's
   normalisation does (a month of 12 is January of the next year, a day of 0
   the last day of the previous month); `wday` is ignored.
   */
  function ToSeconds(t: Tm): int {
    var year := t.year + 1900 + t.mon / 12;
    var month := t.mon % 12 + 1;
    (DaysFromCivil(Date(year, month, 1)) + t.mday - 1) * SecondsPerDay
      + t.hour * 3600 + t.min * 60 + t.sec
  }

  /** Seconds since midnight of an in-range hour, minute and second. */
  function SecondOfDay(t: Tm): int {
    t.hour * 3600 + t.min * 60 + t.sec
  }

  /** Adding seconds to the seconds field moves the denoted instant by as many seconds. */
  lemma ToSecondsShift(t: Tm, e: int)
    ensures ToSeconds(t.(sec := t.sec + e)) == ToSeconds(t) + e
  {
    var u := t.(sec := t.sec + e);
    assert u.year == t.year && u.mon == t.mon && u.mday == t.mday;
  }

  /** With the month in range, timegm is the day number times a day plus the second of the day. */
  lemma ToSecondsInRangeMonth(t: Tm)
    requires 0 <= t.mon <= 11
    ensures ToSeconds(t) == DayOf(t) * SecondsPerDay + SecondOfDay(t)
  {
    assert t.mon / 12 == 0 && t.mon % 12 == t.mon;
  }

  /** A second count splits into a day number and an hour, minute and second of that day. */
  lemma SplitSeconds(s: int)
    ensures 0 <= s % SecondsPerDay / 3600 <= 23
    ensures 0 <= s % SecondsPerDay % 3600 / 60 <= 59
    ensures 0 <= s % SecondsPerDay % 60 <= 59
    ensures s == s / SecondsPerDay * SecondsPerDay
      + s % SecondsPerDay / 3600 * 3600 + s % SecondsPerDay % 3600 / 60 * 60 + s % SecondsPerDay % 60
  {
    var sod := s % SecondsPerDay;
    assert sod == sod / 3600 * 3600 + sod % 3600;
    var rest := sod % 3600;
    assert rest == rest / 60 * 60 + rest % 60;
    assert rest % 60 == sod % 60 by {
      DivModOf(sod, 60, sod / 3600 * 60 + rest / 60, rest % 60);
    }
  }

  /** The broken-down time of second `sod` of day number `days`, with the weekday of that day. */
  function TmOfDay(days: int, sod: int): Tm {
    var d := CivilFromDays(days);
    Tm(d.year - 1900, d.month - 1, d.day, sod / 3600, sod % 3600 / 60, sod % 60, WeekdayOfDay(days))
  }

  /** The date fields of TmOfDay name its day number, and the weekday is that day's. */
  lemma TmOfDayDate(days: int, sod: int)
    ensures var t := TmOfDay(days, sod);
            && 0 <= t.mon <= 11
            && ValidDate(Date(t.year + 1900, t.mon + 1, t.mday))
            && DayOf(t) == days
            && t.wday == WeekdayOfDay(DayOf(t))
  {
    var d := CivilFromDays(days);
    assert Date(TmOfDay(days, sod).year + 1900, TmOfDay(days, sod).mon + 1, TmOfDay(days, sod).mday) == d;
  }

  /** The clock fields of TmOfDay are in range and make up second `sod` of the day. */
  lemma TmOfDayClock(days: int, sod: int)
    requires 0 <= sod < SecondsPerDay
    ensures var t := TmOfDay(days, sod);
            && 0 <= t.hour <= 23 && 0 <= t.min <= 59 && 0 <= t.sec <= 59
            && SecondOfDay(t) == sod
  {
    var rest := sod % 3600;
    assert sod == sod / 3600 * 3600 + rest;
    assert rest == rest / 60 * 60 + rest % 60;
    DivModOf(sod, 60, sod / 3600 * 60 + rest / 60, rest % 60);
  }

  /** gmtime_r: the broken-down UTC time of a count of seconds since the epoch. */
  function FromSeconds(s: int): (t: Tm)
    ensures ValidTm(t)
    ensures ToSeconds(t) == s
  {
    var t := TmOfDay(s / SecondsPerDay, s % SecondsPerDay);
    TmOfDayDate(s / SecondsPerDay, s % SecondsPerDay);
    TmOfDayClock(s / SecondsPerDay, s % SecondsPerDay);
    ToSecondsInRangeMonth(t);
    t
  }

  /** A valid broken-down time splits its instant into its day number and its second of the day. */
  lemma DayAndSecondOf(t: Tm)
    requires ValidTm(t)
    ensures ToSeconds(t) / SecondsPerDay == DayOf(t)
    ensures ToSeconds(t) % SecondsPerDay == SecondOfDay(t)
  {
    ToSecondsInRangeMonth(t);
    DivModOf(ToSeconds(t), SecondsPerDay, DayOf(t), SecondOfDay(t));
  }

  /** The hour, minute and second of an in-range time of day are read back from its second of the day. */
  lemma ClockFieldsOfSecond(h: int, m: int, sec: int)
    requires 0 <= h <= 23 && 0 <= m <= 59 && 0 <= sec <= 59
    ensures var n := h * 3600 + m * 60 + sec;
            n / 3600 == h && n % 3600 / 60 == m && n % 60 == sec
  {
    var n := h * 3600 + m * 60 + sec;
    DivModOf(n, 3600, h, m * 60 + sec);
    DivModOf(m * 60 + sec, 60, m, sec);
    DivModOf(n, 60, h * 60 + m, sec);
  }

  /** A valid broken-down time is rebuilt from its day number and second of the day. */
  lemma TmOfDayOfValid(t: Tm)
    requires ValidTm(t)
    ensures TmOfDay(DayOf(t), SecondOfDay(t)) == t
  {
    CivilOfDays(Date(t.year + 1900, t.mon + 1, t.mday));
    ClockFieldsOfSecond(t.hour, t.min, t.sec);
  }

  /** gmtime_r undoes timegm on every valid broken-down time. */
  lemma FromSecondsOfValid(t: Tm)
    requires ValidTm(t)
    ensures FromSeconds(ToSeconds(t)) == t
  {
    DayAndSecondOf(t);
    TmOfDayOfValid(t);
  }

  /** Two valid broken-down times that denote the same second are the same. */
  lemma ToSecondsInjective(a: Tm, b: Tm)
    requires ValidTm(a) && ValidTm(b)
    requires ToSeconds(a) == ToSeconds(b)
    ensures a == b
  {
    FromSecondsOfValid(a);
    FromSecondsOfValid(b);
  }

  /**
   mktime in a zone without offset: the broken-down time is brought into
   range by carrying through minutes, hours, days, months and years, and
   the weekday is recomputed. The result denotes the same instant.
   */
  function Normalize(t: Tm): (r: Tm)
    ensures ValidTm(r)
    ensures ToSeconds(r) == ToSeconds(t)
  {
    FromSeconds(ToSeconds(t))
  }

  /** Normalising a normalised time changes nothing. */
  lemma NormalizeIdempotent(t: Tm)
    ensures Normalize(Normalize(t)) == Normalize(t)
  {
    FromSecondsOfValid(Normalize(t));
  }

  /** A valid broken-down time is its own normalisation. */
  lemma NormalizeValid(t: Tm)
    requires ValidTm(t)
    ensures Normalize(t) == t
  {
    FromSecondsOfValid(t);
  }
}

=== FILE: clock_tick.dfy ===
/**
 The display clock, clock_tick_cb: every timer period the anchor taken at
 sync_epoch_time is advanced by the seconds elapsed since then and
 normalised; the hour and minute labels always show the result, and on a
 change of the day of the month the date labels are rewritten and the
 anchor moves to the present instant.
 */
module ClockTick {
  import opened CStrings
  import opened Calendar
  import opened State
  import opened HttpDate

  /** The hour of the day a second count falls in. */
  function HourOfDay(s: int): int {
    s % SecondsPerDay / 3600
  }

  /** The minute of the hour a second count falls in. */
  function MinuteOfHour(s: int): int {
    s % SecondsPerDay % 3600 / 60
  }

  /** The day number (days since 1970-01-01) a second count falls in. */
  function DayNumber(s: int): int {
    s / SecondsPerDay
  }

  /** The instant the clock stands for at wall-clock time `now`: the anchor plus the seconds elapsed since it was taken. */
  function Instant(c: ClockState, now: int): int {
    ToSeconds(c.current) + (now - c.syncEpoch)
  }

  /** A valid broken-down time carries the hour, minute and date of the instant it denotes. */
  lemma FieldsOfInstant(t: Tm)
    requires ValidTm(t)
    ensures t.hour == HourOfDay(ToSeconds(t)) && t.min == MinuteOfHour(ToSeconds(t))
    ensures Date(t.year + 1900, t.mon + 1, t.mday) == CivilFromDays(DayNumber(ToSeconds(t)))
    ensures t.wday == WeekdayOfDay(DayNumber(ToSeconds(t)))
  {
    FromSecondsOfValid(t);
  }

  /**
   The copy of the anchor advanced by the elapsed seconds and normalised
   (`t.tm_sec += elapsed; mktime(&t)`).
   */
  function Advance(c: ClockState, now: int): (t: Tm)
    ensures ValidTm(t)
    ensures ToSeconds(t) == Instant(c, now)
  {
    ToSecondsShift(c.current, now - c.syncEpoch);
    Normalize(c.current.(sec := c.current.sec + (now - c.syncEpoch)))
  }

  /** The labels hold two-digit texts of the hour and minute of instant `s`. */
  predicate ShowsClock(ws: seq<LabelWrite>, s: int) {
    ws == [LabelWrite(Hour, Format02(HourOfDay(s))), LabelWrite(Minute, Format02(MinuteOfHour(s)))]
  }

  /** The labels hold the day of the month, month name and weekday name of day number `z`. */
  predicate ShowsDate(ws: seq<LabelWrite>, z: int) {
    var d := CivilFromDays(z);
    ws == [LabelWrite(Day, Format02(d.day)), LabelWrite(Month, MonthNames[d.month - 1]),
           LabelWrite(Weekday, WeekdayNames[WeekdayOfDay(z)])]
  }

  /**
   clock_tick_cb at wall-clock instant `now` (the value time(NULL) returns):
   nothing happens before the first sync; afterwards the advanced anchor is
   shown, preceded by the date when its day of the month differs from the
   one last shown, in which case it also becomes the new anchor.
   */
  function Tick(c: ClockState, now: int): (r: ClockStep)
    ensures r.clock.timeSynced == c.timeSynced
    ensures !c.timeSynced ==> r == ClockStep(c, [])
    ensures c.timeSynced ==> |r.writes| >= 2 && r.writes[|r.writes| - 2..] == HourMinuteWrites(Advance(c, now))
    ensures c.timeSynced ==> Instant(r.clock, now) == Instant(c, now)
    ensures |r.writes| == 5 <==> c.timeSynced && Advance(c, now).mday != c.lastDisplayedDay
    ensures |r.writes| == 5 ==> r.writes[..3] == DateWrites(Advance(c, now))
    ensures |r.writes| == 5 ==> r.clock.syncEpoch == now && r.clock.lastDisplayedDay == r.clock.current.mday
    ensures |r.writes| == 5 ==> r.clock.current == Advance(c, now)
    ensures |r.writes| != 5 ==> r.clock == c
    ensures c.timeSynced && |r.writes| != 5 ==> r.writes == HourMinuteWrites(Advance(c, now))
  {
    if !c.timeSynced then ClockStep(c, [])
    else
      var t := Advance(c, now);
      if t.mday != c.lastDisplayedDay then
        ClockStep(c.(current := t, syncEpoch := now, lastDisplayedDay := t.mday), DateWrites(t) + HourMinuteWrites(t))
      else
        ClockStep(c, HourMinuteWrites(t))
  }

  /** Once synced, every tick ends with the hour and minute of the instant the clock stands for. */
  lemma TickShowsClock(c: ClockState, now: int)
    requires c.timeSynced
    ensures var ws := Tick(c, now).writes;
            |ws| >= 2 && ShowsClock(ws[|ws| - 2..], Instant(c, now))
  {
    FieldsOfInstant(Advance(c, now));
  }

  /**
   A tick that rewrites the date shows the day, month and weekday of the
   instant, and the new anchor is a valid time denoting that instant.
   */
  lemma TickShowsDate(c: ClockState, now: int)
    requires |Tick(c, now).writes| == 5
    ensures var r := Tick(c, now);
            && ShowsDate(r.writes[..3], DayNumber(Instant(c, now)))
            && ValidTm(r.clock.current) && ToSeconds(r.clock.current) == Instant(c, now)
  {
    FieldsOfInstant(Advance(c, now));
  }

  /**
   The clock labels of any instant are two decimal digits each, reading back
   as an hour of the day from 0 to 23 and a minute of the hour from 0 to 59.
   */
  lemma ClockLabelsReadBack(s: int)
    ensures var hh := Format02(HourOfDay(s));
            var mm := Format02(MinuteOfHour(s));
            && IsDigit(hh[0]) && IsDigit(hh[1]) && 0 <= TwoDigitValue(hh) <= 23
            && IsDigit(mm[0]) && IsDigit(mm[1]) && 0 <= TwoDigitValue(mm) <= 59
            && TwoDigitValue(hh) == HourOfDay(s)
            && TwoDigitValue(mm) == MinuteOfHour(s)
  {
    SplitSeconds(s);
    Format02RoundTrip(HourOfDay(s));
    Format02RoundTrip(MinuteOfHour(s));
  }

  /** The first tick after the time is synced always shows the date (the day starts as -1). */
  lemma FirstTickShowsDate(c: ClockState, now: int)
    requires c.timeSynced && c.lastDisplayedDay == -1
    ensures |Tick(c, now).writes| == 5
  {
  }

  /** A second tick at the same instant shows the same clock and never rewrites the date. */
  lemma TickAgainAtSameInstant(c: ClockState, now: int)
    requires c.timeSynced
    ensures var r := Tick(c, now);
            var r2 := Tick(r.clock, now);
            r2.clock == r.clock && r2.writes == r.writes[|r.writes| - 2..]
  {
    var r := Tick(c, now);
    if |r.writes| == 5 {
      NormalizeValid(r.clock.current);
      assert r.clock.current.(sec := r.clock.current.sec + (now - r.clock.syncEpoch)) == r.clock.current;
    }
  }

  /** Within the anchor's day, ticks rewrite only the hour and minute. */
  lemma NoDateWritesWithinDay(c: ClockState, now: int)
    requires c.timeSynced && ValidTm(c.current) && c.lastDisplayedDay == c.current.mday
    requires 0 <= now - c.syncEpoch < SecondsPerDay - SecondOfDay(c.current)
    ensures Tick(c, now) == ClockStep(c, Tick(c, now).writes) && |Tick(c, now).writes| == 2
  {
    var t := Advance(c, now);
    var s := Instant(c, now);
    ToSecondsInRangeMonth(c.current);
    DivModOf(s, SecondsPerDay, DayOf(c.current), SecondOfDay(c.current) + (now - c.syncEpoch));
    FieldsOfInstant(c.current);
    FieldsOfInstant(t);
    assert DayNumber(s) == DayNumber(ToSeconds(c.current)) by {
      DivModOf(ToSeconds(c.current), SecondsPerDay, DayOf(c.current), SecondOfDay(c.current));
    }
  }

  lemma FirstMinuteOfDay(z: int, k: int)
    requires 0 <= k < 60
    ensures DayNumber(z * SecondsPerDay + k) == z
    ensures HourOfDay(z * SecondsPerDay + k) == 0 && MinuteOfHour(z * SecondsPerDay + k) == 0
  {
    DivModOf(z * SecondsPerDay + k, SecondsPerDay, z, k);
  }

  /**
   Twenty seconds after a valid anchor at 23:59:50 on the day shown, the tick
   shows 00:00 on the next calendar day and rewrites the date labels.
   */
  lemma MidnightRollover(c: ClockState, now: int)
    requires c.timeSynced && ValidTm(c.current) && c.lastDisplayedDay == c.current.mday
    requires c.current.hour == 23 && c.current.min == 59 && c.current.sec == 50
    requires now == c.syncEpoch + 20
    ensures var next := NextDate(Date(c.current.year + 1900, c.current.mon + 1, c.current.mday));
            var r := Tick(c, now);
            && |r.writes| == 5
            && Date(r.clock.current.year + 1900, r.clock.current.mon + 1, r.clock.current.mday) == next
            && r.writes[3..] == [LabelWrite(Hour, "00"), LabelWrite(Minute, "00")]
  {
    AdvancePastMidnight(c, now);
    assert Format02(0) == "00";
  }

  /** The advanced anchor twenty seconds after 23:59:50 is 00:00 of the next calendar day. */
  lemma AdvancePastMidnight(c: ClockState, now: int)
    requires ValidTm(c.current)
    requires c.current.hour == 23 && c.current.min == 59 && c.current.sec == 50
    requires now == c.syncEpoch + 20
    ensures var t := Advance(c, now);
            && Date(t.year + 1900, t.mon + 1, t.mday) == NextDate(Date(c.current.year + 1900, c.current.mon + 1, c.current.mday))
            && t.mday != c.current.mday && t.hour == 0 && t.min == 0
  {
    var d := Date(c.current.year + 1900, c.current.mon + 1, c.current.mday);
    var t := Advance(c, now);
    InstantPastMidnight(c, now);
    FirstMinuteOfDay(DayOf(c.current) + 1, 10);
    FieldsOfInstant(t);
    DateOfNextDay(t, d);
  }

  lemma InstantPastMidnight(c: ClockState, now: int)
    requires ValidTm(c.current)
    requires c.current.hour == 23 && c.current.min == 59 && c.current.sec == 50
    requires now == c.syncEpoch + 20
    ensures Instant(c, now) == (DayOf(c.current) + 1) * SecondsPerDay + 10
  {
    ToSecondsInRangeMonth(c.current);
  }

  /** A valid time whose instant falls on the day after `d` carries the calendar successor of `d`. */
  lemma DateOfNextDay(t: Tm, d: Date)
    requires ValidTm(t) && ValidDate(d)
    requires DayNumber(ToSeconds(t)) == DaysFromCivil(d) + 1
    ensures Date(t.year + 1900, t.mon + 1, t.mday) == NextDate(d)
    ensures t.mday != d.day
  {
    FieldsOfInstant(t);
    NextDateIsNextDay(d);
  }

  /**
   sync_time leaves sync_epoch_time at its start-up value 0, so the first
   tick after the start-up sync advances the anchor by the whole wall-clock
   value `now`, not by the seconds since the sync.
   */
  lemma FirstTickAfterStartupSync(headers: Option<string>, now: int)
    requires SyncTime(InitialClock, headers).clock.timeSynced
    ensures var c := SyncTime(InitialClock, headers).clock;
            && |Tick(c, now).writes| == 5
            && ToSeconds(Tick(c, now).clock.current) == ToSeconds(c.current) + now
  {
  }
}

=== FILE: cstrings.dfy ===
/**
 The C library string and number routines the weather station relies on,
 stated over `string` (a `seq<char>`). A C buffer is modelled by the
 characters it holds; reading past the end of the sequence reads the
 terminating NUL.
 */
module CStrings {

  datatype Option<T> = None | Some(value: T) {
    predicate IsFailure() {
      None?
    }

    function PropagateFailure<U>(): Option<U>
      requires None?
    {
      None
    }

    function Extract(): T
      requires Some?
    {
      value
    }
  }

  const NUL: char := '\0'

  function Min(a: int, b: int): int { if a <= b then a else b }

  /** The character at index `i` of a C string held in `s`; past the end it is the terminator. */
  function At(s: string, i: nat): char {
    if i < |s| then s[i] else NUL
  }

  /** `s` without its first character (empty stays empty). */
  function Tail(s: string): string {
    if s == [] then s else s[1..]
  }

  /** The first `n` characters of `s`, or all of `s` when it is shorter. */
  function Take(s: string, n: nat): (r: string)
    ensures r <= s
    ensures |r| == Min(|s|, n)
  {
    if |s| <= n then s else s[..n]
  }

  /** strpbrk: the index of the first character of `s` that belongs to `cs`. */
  function FindFirstOf(s: string, cs: set<char>): (r: Option<nat>)
    ensures r.Some? ==> r.value < |s| && s[r.value] in cs
    ensures r.Some? ==> forall j :: 0 <= j < r.value ==> s[j] !in cs
    ensures r.None? ==> forall j :: 0 <= j < |s| ==> s[j] !in cs
  {
    if s == [] then None
    else if s[0] in cs then Some(0)
    else match FindFirstOf(s[1..], cs)
      case None => None
      case Some(i) => Some(i + 1)
  }

  /** strpbrk stops at the first character of the set. */
  lemma FindFirstOfAt(s: string, cs: set<char>, i: nat)
    requires i < |s| && s[i] in cs
    requires forall j :: 0 <= j < i ==> s[j] !in cs
    ensures FindFirstOf(s, cs) == Some(i)
  {
  }

  /** strchr: the index of the first occurrence of `c` in `s`. */
  function FindChar(s: string, c: char): (r: Option<nat>)
    ensures r.Some? ==> r.value < |s| && s[r.value] == c && c !in s[..r.value]
    ensures r.None? ==> c !in s
  {
    var r := FindFirstOf(s, {c});
    assert r.Some? ==> forall j :: 0 <= j < r.value ==> s[..r.value][j] != c;
    r
  }

  /** A character has at most one first occurrence. */
  lemma FirstOccurrenceUnique(s: string, c: char, i: nat)
    requires i < |s| && s[i] == c && c !in s[..i]
    ensures forall k :: 0 <= k < |s| && s[k] == c && c !in s[..k] ==> k == i
  {
  }

  /** The text a `char *` designates: everything before the first NUL. */
  function CStr(s: string): (r: string)
    ensures r <= s
    ensures NUL !in r
    ensures |r| < |s| ==> s[|r|] == NUL
  {
    match FindChar(s, NUL)
    case None => s
    case Some(i) => s[..i]
  }

  /** A text without NUL is its own C string. */
  lemma CStrOfNulFree(s: string)
    requires NUL !in s
    ensures CStr(s) == s
  {
  }

  /**
   snprintf(dst, cap, "%.*s", |value|, value): at most `cap - 1` characters of
   `value` are copied, the copy also stops at a NUL inside `value`, and the
   last byte of the buffer is left for the terminator.
   */
  function BoundedCopy(value: string, cap: nat): (r: string)
    requires cap >= 1
    ensures r <= value
    ensures NUL !in r
    ensures |r| == Min(|CStr(value)|, cap - 1)
  {
    Take(CStr(value), cap - 1)
  }

  /**
   strncmp(a, b, n) == 0: the two C strings agree on their first `n`
   characters, where the comparison stops early at a terminator both share.
   */
  function StrnEq(a: string, b: string, n: nat): (r: bool)
    ensures r <==> AgreeUpTo(a, b, n)
    decreases n
  {
    if n == 0 then true
    else
      AgreeUpToStep(a, b, n);
      At(a, 0) == At(b, 0) && (At(a, 0) == NUL || StrnEq(Tail(a), Tail(b), n - 1))
  }

  /** `a` holds no terminator before index `j`. */
  predicate NulFreeBefore(a: string, j: nat) {
    forall k :: 0 <= k < j ==> At(a, k) != NUL
  }

  /**
   What strncmp(a, b, n) == 0 means: at each of the first `n` indices up to
   and including the first terminator of `a`, the two C strings agree.
   */
  predicate AgreeUpTo(a: string, b: string, n: nat) {
    forall j :: 0 <= j < n && NulFreeBefore(a, j) ==> At(a, j) == At(b, j)
  }

  /** Agreement on `n` indices is agreement on the first, then (before a terminator) on `n - 1` indices of the tails. */
  lemma AgreeUpToStep(a: string, b: string, n: nat)
    requires n > 0
    ensures AgreeUpTo(a, b, n) <==>
      At(a, 0) == At(b, 0) && (At(a, 0) == NUL || AgreeUpTo(Tail(a), Tail(b), n - 1))
  {
    assert forall j: nat :: At(Tail(a), j) == At(a, j + 1) && At(Tail(b), j) == At(b, j + 1);
    assert NulFreeBefore(a, 0);
    if At(a, 0) == At(b, 0) && At(a, 0) != NUL {
      forall j | 0 <= j < n - 1
        ensures NulFreeBefore(Tail(a), j) <==> NulFreeBefore(a, j + 1)
      {
        if NulFreeBefore(a, j + 1) {
          assert forall k :: 0 <= k < j ==> At(Tail(a), k) == At(a, k + 1);
        }
        if NulFreeBefore(Tail(a), j) {
          forall k | 0 <= k < j + 1
            ensures At(a, k) != NUL
          {
            if k > 0 {
              assert At(a, k) == At(Tail(a), k - 1);
            }
          }
        }
      }
      if AgreeUpTo(Tail(a), Tail(b), n - 1) {
        forall j | 0 <= j < n && NulFreeBefore(a, j)
          ensures At(a, j) == At(b, j)
        {
          if j > 0 {
            assert At(a, j) == At(Tail(a), j - 1) && At(b, j) == At(Tail(b), j - 1);
          }
        }
      }
    }
  }

  /**
   Comparing a key of length |key| against a NUL-free name with
   strncmp(key, name, |key|) succeeds exactly when the key is a prefix of the
   name, or when the key holds the whole name followed by a NUL.
   */
  lemma {:induction false} StrnEqAgainstName(key: string, name: string)
    requires NUL !in name
    ensures StrnEq(key, name, |key|) <==> key <= name || name + [NUL] <= key
    decreases |key|
  {
    if key == [] {
    } else if name == [] {
      assert At(name, 0) == NUL;
    } else {
      assert At(key, 0) == key[0] && At(name, 0) == name[0];
      StrnEqAgainstName(key[1..], name[1..]);
      if key[0] == name[0] {
        assert key <= name <==> key[1..] <= name[1..];
        assert name + [NUL] <= key <==> name[1..] + [NUL] <= key[1..] by {
          assert (name + [NUL])[1..] == name[1..] + [NUL];
        }
      }
    }
  }

  /**
   A key of the same length as a NUL-free name passes
   strncmp(key, name, |key|) exactly when it equals the name.
   */
  lemma StrnEqExactLength(key: string, name: string)
    requires NUL !in name
    requires |key| == |name|
    ensures StrnEq(key, name, |key|) <==> key == name
  {
    StrnEqAgainstName(key, name);
  }

  /**
   strncmp(name, s, |name|) == 0 for a NUL-free name and a NUL-free `s` no
   longer than the name holds exactly when `s` is the name.
   */
  lemma {:induction false} StrnEqNameFirst(name: string, s: string)
    requires NUL !in name && NUL !in s
    requires |s| <= |name|
    ensures StrnEq(name, s, |name|) <==> s == name
    decreases |name|
  {
    if name == [] {
    } else if s == [] {
      assert At(s, 0) == NUL && At(name, 0) == name[0];
    } else {
      assert At(name, 0) == name[0] && At(s, 0) == s[0];
      StrnEqNameFirst(name[1..], s[1..]);
      if name[0] == s[0] {
        assert s == name <==> s[1..] == name[1..];
      }
    }
  }

  /** The text starting at index `j` of `s` begins with `pat`. */
  predicate OccursAt(s: string, pat: string, j: nat) {
    j + |pat| <= |s| && s[j..j + |pat|] == pat
  }

  function FindSubstringFrom(s: string, pat: string, i: nat): (r: Option<nat>)
    requires i <= |s|
    ensures r.Some? ==> i <= r.value && OccursAt(s, pat, r.value)
    ensures r.Some? ==> forall j :: i <= j < r.value ==> !OccursAt(s, pat, j)
    ensures r.None? ==> forall j :: i <= j <= |s| ==> !OccursAt(s, pat, j)
    decreases |s| - i
  {
    if i + |pat| > |s| then None
    else if s[i..i + |pat|] == pat then Some(i)
    else if i == |s| then None
    else FindSubstringFrom(s, pat, i + 1)
  }

  /** strstr: the index of the first occurrence of `pat` in `s`. */
  function FindSubstring(s: string, pat: string): (r: Option<nat>)
    ensures r.Some? ==> OccursAt(s, pat, r.value)
    ensures r.Some? ==> forall j :: 0 <= j < r.value ==> !OccursAt(s, pat, j)
    ensures r.None? ==> forall j :: 0 <= j <= |s| ==> !OccursAt(s, pat, j)
  {
    FindSubstringFrom(s, pat, 0)
  }

  /** strstr finds an occurrence with none before it. */
  lemma FindSubstringAt(s: string, pat: string, i: nat)
    requires OccursAt(s, pat, i)
    requires forall j :: 0 <= j < i ==> !OccursAt(s, pat, j)
    ensures FindSubstring(s, pat) == Some(i)
  {
  }

  // ---------------------------------------------------------------------------
  // Numbers
  // ---------------------------------------------------------------------------

  /** isspace in the C locale: space, tab, newline, vertical tab, form feed, carriage return. */
  predicate IsSpace(c: char) {
    c == ' ' || c == '\t' || c == '\n' || c == '\r' || c as int == 0x0B || c as int == 0x0C
  }

  predicate IsDigit(c: char) {
    '0' <= c <= '9'
  }

  function DigitValue(c: char): int
    requires IsDigit(c)
  {
    c as int - '0' as int
  }

  function DigitChar(d: int): (c: char)
    requires 0 <= d <= 9
    ensures IsDigit(c) && DigitValue(c) == d
  {
    ('0' as int + d) as char
  }

  /** `s` with its leading characters satisfying isspace removed. */
  function SkipSpace(s: string): (r: string)
    ensures |r| <= |s|
    ensures r != [] ==> !IsSpace(r[0])
  {
    if s != [] && IsSpace(s[0]) then SkipSpace(s[1..]) else s
  }

  /** What SkipSpace removes is a run of white space at the head of `s`. */
  lemma {:induction false} SkipSpaceSuffix(s: string)
    ensures var r := SkipSpace(s);
            && r == s[|s| - |r|..]
            && forall j :: 0 <= j < |s| - |r| ==> IsSpace(s[j])
  {
    if s != [] && IsSpace(s[0]) {
      SkipSpaceSuffix(s[1..]);
    }
  }

  /** A text that starts with a digit has neither leading white space nor a sign. */
  lemma DigitLed(s: string)
    requires s != [] && IsDigit(s[0])
    ensures SkipSpace(s) == s
    ensures SignOf(s) == 1 && AfterSign(s) == s
  {
  }

  /** The longest prefix of `s` made of decimal digits. */
  function LeadingDigits(s: string): (r: string)
    ensures r <= s
    ensures forall j :: 0 <= j < |r| ==> IsDigit(r[j])
    ensures |r| < |s| ==> !IsDigit(s[|r|])
  {
    if s != [] && IsDigit(s[0]) then [s[0]] + LeadingDigits(s[1..]) else []
  }

  /** The value of a digit string read most significant digit first. */
  function DigitsValue(ds: string): (v: nat)
    requires forall j :: 0 <= j < |ds| ==> IsDigit(ds[j])
  {
    if ds == [] then 0 else DigitsValue(ds[..|ds| - 1]) * 10 + DigitValue(ds[|ds| - 1])
  }

  /** The sign prefix strtol accepts: '-' gives -1, '+' or nothing gives 1. */
  function SignOf(s: string): int {
    if s != [] && s[0] == '-' then -1 else 1
  }

  function AfterSign(s: string): (r: string)
    ensures |r| <= |s|
  {
    if s != [] && (s[0] == '-' || s[0] == '+') then s[1..] else s
  }

  const LongMax: int := 0x7FFF_FFFF
  const LongMin: int := -0x8000_0000

  /** The value strtol(s, NULL, 10) would read without any range limit. */
  function DecimalPrefixValue(s: string): int {
    var t := SkipSpace(s);
    SignOf(t) * DigitsValue(LeadingDigits(AfterSign(t)))
  }

  /**
   atoi(s) as the target's C library computes it: (int) strtol(s, NULL, 10)
   with a 32-bit `long`, so an out-of-range number saturates at the bounds.
   */
  function Atoi(s: string): (v: int)
    ensures LongMin <= v <= LongMax
    ensures LongMin <= DecimalPrefixValue(s) <= LongMax ==> v == DecimalPrefixValue(s)
    ensures DecimalPrefixValue(s) > LongMax ==> v == LongMax
    ensures DecimalPrefixValue(s) < LongMin ==> v == LongMin
  {
    SaturateLong(DecimalPrefixValue(s))
  }

  /** strtol's range limit: a value beyond the bounds of a 32-bit `long` becomes the bound it passes. */
  function SaturateLong(x: int): (v: int)
    ensures LongMin <= v <= LongMax
    ensures LongMin <= x <= LongMax ==> v == x
    ensures x > LongMax ==> v == LongMax
    ensures x < LongMin ==> v == LongMin
  {
    if x > LongMax then LongMax else if x < LongMin then LongMin else x
  }

  /** The shortest decimal rendering of a natural number. */
  function Decimal(n: nat): (r: string)
    ensures |r| >= 1
    ensures forall j :: 0 <= j < |r| ==> IsDigit(r[j])
    decreases n
  {
    if n < 10 then [DigitChar(n)] else Decimal(n / 10) + [DigitChar(n % 10)]
  }

  /** Reading back a decimal rendering gives the number. */
  lemma {:induction false} DecimalValue(n: nat)
    ensures DigitsValue(Decimal(n)) == n
    decreases n
  {
    if n >= 10 {
      DecimalValue(n / 10);
      var r := Decimal(n);
      assert r[..|r| - 1] == Decimal(n / 10);
    }
  }

  lemma {:induction false} LeadingDigitsOfDigits(ds: string, rest: string)
    requires forall j :: 0 <= j < |ds| ==> IsDigit(ds[j])
    requires rest == [] || !IsDigit(rest[0])
    ensures LeadingDigits(ds + rest) == ds
    decreases |ds|
  {
    if ds != [] {
      assert (ds + rest)[1..] == ds[1..] + rest;
      LeadingDigitsOfDigits(ds[1..], rest);
    }
  }

  /** atoi reads back the decimal rendering of every value an int can hold. */
  lemma AtoiOfDecimal(n: nat)
    requires n <= LongMax
    ensures Atoi(Decimal(n)) == n
  {
    var d := Decimal(n);
    DigitLed(d);
    LeadingDigitsOfDigits(d, []);
    assert d + [] == d;
    DecimalValue(n);
    assert DecimalPrefixValue(d) == n;
  }

  /**
   snprintf(buf, 3, "%02d", n): at least two digits, zero padded, cut to the
   two characters a three-byte buffer can hold.
   */
  function Format02(n: int): (r: string)
    ensures |r| == 2
    ensures n >= 0 ==> IsDigit(r[0]) && IsDigit(r[1])
    ensures n < 0 ==> r[0] == '-'
  {
    var body := if n < 0 then "-" + Decimal(-n) else Decimal(n);
    var padded := if |body| < 2 then "0" + body else body;
    padded[..2]
  }

  /** The number a two-digit text shows. */
  function TwoDigitValue(s: string): int
    requires |s| == 2 && IsDigit(s[0]) && IsDigit(s[1])
  {
    DigitValue(s[0]) * 10 + DigitValue(s[1])
  }

  /** Every value from 0 to 99 is shown as two digits that read back as that value. */
  lemma Format02RoundTrip(n: int)
    requires 0 <= n <= 99
    ensures IsDigit(Format02(n)[0]) && IsDigit(Format02(n)[1])
    ensures TwoDigitValue(Format02(n)) == n
  {
    if n >= 10 {
      assert Decimal(n) == Decimal(n / 10) + [DigitChar(n % 10)];
      assert Decimal(n / 10) == [DigitChar(n / 10)];
    }
  }
}

=== FILE: http_date.dfy ===
/**
 Time synchronisation from the HTTP `Date` response header: month_str_to_index,
 the extraction of the header value into sync_time's 64-byte buffer, the
 `sscanf(exact_time, "%*3s, %d %3s %d %d:%d:%d", ...)` conversion, and
 sync_time itself, which turns the GMT instant into local time by the fixed
 IST offset and shows it once.
 */
module HttpDate {
  import opened CStrings
  import opened Calendar
  import opened State

  /** IST is 5.5 hours; (int)(5.5 * 3600) is exactly 19800 seconds. */
  const IstOffsetSeconds: int := 19800

  /** sizeof(exact_time) in sync_time. */
  const DateBufferCap: nat := 64

  // ---------------------------------------------------------------------------
  // month_str_to_index
  // ---------------------------------------------------------------------------

  lemma MonthNamesShape()
    ensures |MonthNames| == 12
    ensures forall i :: 0 <= i < 12 ==> |MonthNames[i]| == 3 && NUL !in MonthNames[i]
    ensures forall i, j :: 0 <= i < j < 12 ==> MonthNames[i] != MonthNames[j]
  {
  }

  /** The loop of month_str_to_index from index `i` on. */
  function MonthSearch(month: string, i: nat): (r: int)
    requires i <= 12
    ensures 0 <= r <= 11
    ensures (i <= r && StrnEq(MonthNames[r], month, 3) && forall k :: i <= k < r ==> !StrnEq(MonthNames[k], month, 3))
         || (r == 0 && forall k :: i <= k < 12 ==> !StrnEq(MonthNames[k], month, 3))
    decreases 12 - i
  {
    if i == 12 then 0
    else if StrnEq(MonthNames[i], month, 3) then i
    else MonthSearch(month, i + 1)
  }

  /**
   month_str_to_index: the first month whose abbreviation agrees with `month`
   under strncmp(months[i], month, 3), and January when none does.
   */
  function MonthStrToIndex(month: string): (r: int)
    ensures 0 <= r <= 11
    ensures forall k :: 0 <= k < r ==> !StrnEq(MonthNames[k], month, 3)
    ensures StrnEq(MonthNames[r], month, 3) || (r == 0 && forall k :: 0 <= k < 12 ==> !StrnEq(MonthNames[k], month, 3))
  {
    MonthSearch(month, 0)
  }

  /** Every abbreviation maps back to its own index. */
  lemma MonthIndexOfName(k: int)
    requires 0 <= k < 12
    ensures MonthStrToIndex(MonthNames[k]) == k
  {
    MonthNamesShape();
    forall j | 0 <= j < 12
      ensures StrnEq(MonthNames[j], MonthNames[k], 3) <==> j == k
    {
      StrnEqNameFirst(MonthNames[j], MonthNames[k]);
    }
  }

  /**
   For a NUL-free text of at most three characters, as `%3s` produces, the
   index names that very text when it is a month abbreviation and is 0 otherwise.
   */
  lemma MonthIndexOfWord(m: string)
    requires NUL !in m && |m| <= 3
    ensures m in MonthNames ==> MonthNames[MonthStrToIndex(m)] == m
    ensures m !in MonthNames ==> MonthStrToIndex(m) == 0
  {
    MonthNamesShape();
    forall j | 0 <= j < 12
      ensures StrnEq(MonthNames[j], m, 3) <==> MonthNames[j] == m
    {
      StrnEqNameFirst(MonthNames[j], m);
    }
  }

  // ---------------------------------------------------------------------------
  // The Date header value
  // ---------------------------------------------------------------------------

  /** `s` with its leading blanks removed (the `while (*date_ptr == ' ')` loop). */
  function SkipBlanks(s: string): (r: string)
    ensures |r| <= |s|
    ensures r == [] || r[0] != ' '
  {
    if s != [] && s[0] == ' ' then SkipBlanks(s[1..]) else s
  }

  /** What SkipBlanks removes is the run of blanks at the head of `s`. */
  lemma {:induction false} SkipBlanksSuffix(s: string)
    ensures var r := SkipBlanks(s);
            && r == s[|s| - |r|..]
            && forall j :: 0 <= j < |s| - |r| ==> s[j] == ' '
  {
    if s != [] && s[0] == ' ' {
      SkipBlanksSuffix(s[1..]);
    }
  }

  /**
   The copy of a header value into exact_time: up to the first line break
   when that lies within the buffer, and otherwise the first 63 characters.
   Both branches amount to one rule: the longest prefix of the value without
   a line break, cut to 63 characters.
   */
  function CopyLine(v: string): (r: string)
    ensures r <= v && |r| < DateBufferCap
    ensures '\r' !in r && '\n' !in r
    ensures |r| == DateBufferCap - 1 || |r| == |v| || v[|r|] == '\r' || v[|r|] == '\n'
  {
    var end := FindFirstOf(v, {'\r', '\n'});
    if end.Some? && end.value < DateBufferCap then v[..end.value]
    else Take(v, DateBufferCap - 1)
  }

  /**
   The text sync_time copies into exact_time: the value after the first
   "Date:", without leading blanks, copied by CopyLine. Without a "Date:"
   the buffer stays empty.
   */
  function DateText(headers: string): (r: string)
    ensures |r| < DateBufferCap
    ensures NUL !in r && '\r' !in r && '\n' !in r
    ensures match FindSubstring(CStr(headers), "Date:")
      case None => r == ""
      case Some(i) =>
        var v := SkipBlanks(CStr(headers)[i + 5..]);
        && r <= v
        && (|r| == DateBufferCap - 1 || |r| == |v| || v[|r|] == '\r' || v[|r|] == '\n')
  {
    var hs := CStr(headers);
    match FindSubstring(hs, "Date:")
    case None => ""
    case Some(i) =>
      var v := SkipBlanks(hs[i + 5..]);
      SkipBlanksNulFree(hs[i + 5..]);
      CopyLine(v)
  }

  /** Removing leading blanks from a text without a terminator leaves one without a terminator. */
  lemma SkipBlanksNulFree(s: string)
    requires NUL !in s
    ensures NUL !in SkipBlanks(s)
  {
    SkipBlanksSuffix(s);
  }

  /** Text that sync_time's extraction passes through whole: no terminator, no line break. */
  predicate OneLine(s: string) {
    NUL !in s && '\r' !in s && '\n' !in s
  }

  lemma SkipOneBlank(v: string)
    requires v == [] || v[0] != ' '
    ensures SkipBlanks(" " + v) == v
  {
    assert (" " + v)[1..] == v;
  }

  /** The header text is searched whole and its first "Date:" is the one after `before`. */
  lemma HeaderValueStart(before: string, value: string, after: string)
    requires NUL !in before && NUL !in after
    requires forall j :: 0 <= j < |before| ==> !OccursAt(before + "Date: " + value + "\r\n" + after, "Date:", j)
    requires OneLine(value)
    ensures var hs := before + "Date: " + value + "\r\n" + after;
            CStr(hs) == hs && FindSubstring(hs, "Date:") == Some(|before|)
            && hs[|before| + 5..] == " " + (value + "\r\n" + after)
  {
    var v := value + "\r\n" + after;
    var hs := before + "Date: " + value + "\r\n" + after;
    assert hs == before + "Date:" + (" " + v);
    CStrOfNulFree(hs);
    assert OccursAt(hs, "Date:", |before|);
    FindSubstringAt(hs, "Date:", |before|);
  }

  /** One blank is skipped and the value runs up to the carriage return. */
  lemma HeaderValueEnd(value: string, after: string)
    requires OneLine(value)
    requires value == [] || value[0] != ' '
    ensures var v := value + "\r\n" + after;
            SkipBlanks(" " + v) == v && FindFirstOf(v, {'\r', '\n'}) == Some(|value|) && v[..|value|] == value
  {
    var v := value + "\r\n" + after;
    assert v == [] || v[0] != ' ';
    SkipOneBlank(v);
    assert v[|value|] == '\r';
    assert forall j :: 0 <= j < |value| ==> v[j] == value[j];
    FindFirstOfAt(v, {'\r', '\n'}, |value|);
  }

  /**
   A header block whose first "Date:" is followed by a blank and a value that
   fits the buffer and ends at a line break yields exactly that value.
   */
  lemma DateTextOfHeaderLine(before: string, value: string, after: string)
    requires NUL !in before && NUL !in after
    requires forall j :: 0 <= j < |before| ==> !OccursAt(before + "Date: " + value + "\r\n" + after, "Date:", j)
    requires OneLine(value) && |value| < DateBufferCap
    requires value == [] || value[0] != ' '
    ensures DateText(before + "Date: " + value + "\r\n" + after) == value
  {
    HeaderValueStart(before, value, after);
    HeaderValueEnd(value, after);
  }

  // ---------------------------------------------------------------------------
  // sscanf(exact_time, "%*3s, %d %3s %d %d:%d:%d", ...)
  // ---------------------------------------------------------------------------

  /** A converted value and the input left after it. */
  datatype Scanned<T> = Scanned(value: T, rest: string)

  /** The longest run of non-space characters at the head of `s`, at most `width` long. */
  function WordPrefix(s: string, width: nat): (r: string)
    ensures r <= s && |r| <= width
    ensures forall j :: 0 <= j < |r| ==> !IsSpace(r[j])
    ensures |r| < width && |r| < |s| ==> IsSpace(s[|r|])
    decreases width
  {
    if width == 0 || s == [] || IsSpace(s[0]) then [] else [s[0]] + WordPrefix(s[1..], width - 1)
  }

  /**
   The `%Ns` conversion: white space is skipped, then one to `width`
   non-space characters are taken; none at all is a failure.
   */
  function ScanWord(s: string, width: nat): (r: Option<Scanned<string>>)
    ensures r.Some? ==> 1 <= |r.value.value| <= width && r.value.value + r.value.rest == SkipSpace(s)
    ensures r.Some? ==> forall j :: 0 <= j < |r.value.value| ==> !IsSpace(r.value.value[j])
    ensures r.None? <==> SkipSpace(s) == [] || width == 0
    ensures r.Some? ==> |r.value.value| == width || r.value.rest == [] || IsSpace(r.value.rest[0])
  {
    var t := SkipSpace(s);
    var w := WordPrefix(t, width);
    if w == [] then None
    else
      assert w + t[|w|..] == t;
      Some(Scanned(w, t[|w|..]))
  }

  /**
   The `%d` conversion: white space is skipped, then an optional sign and at
   least one decimal digit are read. The value is the one strtol would read;
   its range is not limited (see README).
   */
  function ScanInt(s: string): (r: Option<Scanned<int>>)
    ensures r.Some? ==> r.value.value == DecimalPrefixValue(s)
    ensures r.None? <==> LeadingDigits(AfterSign(SkipSpace(s))) == []
  {
    var t := SkipSpace(s);
    var u := AfterSign(t);
    var ds := LeadingDigits(u);
    if ds == [] then None else Some(Scanned(SignOf(t) * DigitsValue(ds), u[|ds|..]))
  }

  /** A successful `%d` consumes at least one character and stops at the first non-digit. */
  lemma ScanIntRest(s: string)
    requires ScanInt(s).Some?
    ensures var rest := ScanInt(s).value.rest;
            && |rest| < |s| && rest == s[|s| - |rest|..]
            && (rest == [] || !IsDigit(rest[0]))
            && forall j :: |s| - |AfterSign(SkipSpace(s))| <= j < |s| - |rest| ==> IsDigit(s[j])
  {
    var t := SkipSpace(s);
    var u := AfterSign(t);
    var ds := LeadingDigits(u);
    SkipSpaceSuffix(s);
    assert u == t[|t| - |u|..];
    assert u == s[|s| - |u|..];
    assert u[|ds|..] == s[|s| - |u| + |ds|..];
  }

  /** An ordinary character in the format must be the next input character. */
  function ScanLiteral(s: string, c: char): (r: Option<string>)
    ensures r.Some? <==> s != [] && s[0] == c
    ensures r.Some? ==> s == [c] + r.value
  {
    if s != [] && s[0] == c then Some(s[1..]) else None
  }

  /** The six values the conversion assigns. */
  datatype DateFields = DateFields(day: int, month: string, year: int, hour: int, minute: int, second: int)

  /** What the date part "%*3s, %d %3s %d" of the format assigns. */
  datatype DayMonthYear = DayMonthYear(day: int, month: string, year: int)

  /** What the time part " %d:%d:%d" of the format assigns. */
  datatype TimeOfDay = TimeOfDay(hour: int, minute: int, second: int)

  /**
   The date part: a skipped word of one to three characters, a comma, the
   day, a month word of one to three characters and the year. The blank
   directives of the format skip white space, which `%d` and `%s` skip
   anyway, so they need no step of their own.
   */
  function ScanDayMonthYear(s: string): (r: Option<Scanned<DayMonthYear>>)
    ensures r.Some? ==> 1 <= |r.value.value.month| <= 3
  {
    var dayName :- ScanWord(s, 3);
    var afterComma :- ScanLiteral(dayName.rest, ',');
    var day :- ScanInt(afterComma);
    var month :- ScanWord(day.rest, 3);
    var year :- ScanInt(month.rest);
    Some(Scanned(DayMonthYear(day.value, month.value, year.value), year.rest))
  }

  /** The time part: three numbers separated by colons. */
  function ScanTimeOfDay(s: string): (r: Option<Scanned<TimeOfDay>>)
  {
    var hour :- ScanInt(s);
    var afterColon :- ScanLiteral(hour.rest, ':');
    var minute :- ScanInt(afterColon);
    var afterColon2 :- ScanLiteral(minute.rest, ':');
    var second :- ScanInt(afterColon2);
    Some(Scanned(TimeOfDay(hour.value, minute.value, second.value), second.rest))
  }

  /** The conversion succeeds (returns 6) exactly when every directive matches. */
  function ScanImfFixdate(s: string): (r: Option<DateFields>)
    ensures r.Some? ==> 1 <= |r.value.month| <= 3
    ensures r.Some? <==> ScanDayMonthYear(s).Some? && ScanTimeOfDay(ScanDayMonthYear(s).value.rest).Some?
    ensures SkipSpace(s) == [] ==> r.None?
  {
    var date :- ScanDayMonthYear(s);
    var time :- ScanTimeOfDay(date.rest);
    Some(DateFields(date.value.day, date.value.month, date.value.year, time.value.hour, time.value.minute, time.value.second))
  }

  // ---------------------------------------------------------------------------
  // The IMF-fixdate form of section 7.1.1.1 of RFC 7231, which the scan reads back
  // ---------------------------------------------------------------------------

  /** An IMF-fixdate: weekday 0 = Sunday, month 0 = January. */
  datatype ImfDate = ImfDate(weekday: int, day: int, month: int, year: int, hour: int, minute: int, second: int)

  /** The values an IMF-fixdate can carry: two-digit fields, a four-digit year. */
  predicate Renderable(d: ImfDate) {
    && 0 <= d.weekday <= 6 && 0 <= d.month <= 11
    && 0 <= d.day <= 99 && 0 <= d.year <= 9999
    && 0 <= d.hour <= 99 && 0 <= d.minute <= 99 && 0 <= d.second <= 99
  }

  /** "Mon, 01 Jan 2024 10:00:00 GMT". */
  function ImfFixdate(d: ImfDate): string
    requires Renderable(d)
  {
    WeekdayNames[d.weekday] + (", " + (Format02(d.day) + (" " + (MonthNames[d.month] + (" " + (Decimal(d.year)
      + (" " + (Format02(d.hour) + (":" + (Format02(d.minute) + (":" + (Format02(d.second) + " GMT"))))))))))))
  }

  lemma DecimalAtMostFourDigits(n: nat)
    requires n <= 9999
    ensures |Decimal(n)| <= 4
  {
    if n >= 10 {
      var a := n / 10;
      assert |Decimal(n)| == |Decimal(a)| + 1;
      if a >= 10 {
        var b := a / 10;
        assert |Decimal(a)| == |Decimal(b)| + 1;
        if b >= 10 {
          assert |Decimal(b)| == |Decimal(b / 10)| + 1;
        }
      }
    }
  }

  lemma DigitsOneLine(s: string)
    requires forall j :: 0 <= j < |s| ==> IsDigit(s[j])
    ensures OneLine(s)
  {
    assert forall c :: c in s ==> IsDigit(c);
  }

  lemma NamesOneLine()
    ensures forall i :: 0 <= i < 12 ==> |MonthNames[i]| == 3 && OneLine(MonthNames[i])
    ensures forall i :: 0 <= i < 7 ==> |WeekdayNames[i]| == 3 && OneLine(WeekdayNames[i])
  {
  }

  /** Joining two texts without a terminator or line break gives another. */
  lemma OneLineJoin(a: string, b: string)
    requires OneLine(a) && OneLine(b)
    ensures OneLine(a + b)
  {
  }

  /** The two-digit fields and the year are digits only. */
  lemma ImfFieldsOneLine(d: ImfDate)
    requires Renderable(d)
    ensures OneLine(Format02(d.day)) && OneLine(Format02(d.hour))
    ensures OneLine(Format02(d.minute)) && OneLine(Format02(d.second))
    ensures OneLine(Decimal(d.year))
  {
    Format02Digits(d.day);
    Format02Digits(d.hour);
    Format02Digits(d.minute);
    Format02Digits(d.second);
    DigitsOneLine(Format02(d.day));
    DigitsOneLine(Format02(d.hour));
    DigitsOneLine(Format02(d.minute));
    DigitsOneLine(Format02(d.second));
    DigitsOneLine(Decimal(d.year));
  }

  /** A rendered date has no NUL and no line break. */
  lemma ImfFixdateOneLine(d: ImfDate)
    requires Renderable(d)
    ensures OneLine(ImfFixdate(d))
  {
    NamesOneLine();
    ImfFieldsOneLine(d);
    var t0 := Format02(d.second) + " GMT";
    OneLineJoin(Format02(d.second), " GMT");
    var t1 := ":" + t0;
    OneLineJoin(":", t0);
    var t2 := Format02(d.minute) + t1;
    OneLineJoin(Format02(d.minute), t1);
    var t3 := ":" + t2;
    OneLineJoin(":", t2);
    var t4 := Format02(d.hour) + t3;
    OneLineJoin(Format02(d.hour), t3);
    var t5 := " " + t4;
    OneLineJoin(" ", t4);
    var t6 := Decimal(d.year) + t5;
    OneLineJoin(Decimal(d.year), t5);
    var t7 := " " + t6;
    OneLineJoin(" ", t6);
    var t8 := MonthNames[d.month] + t7;
    OneLineJoin(MonthNames[d.month], t7);
    var t9 := " " + t8;
    OneLineJoin(" ", t8);
    var t10 := Format02(d.day) + t9;
    OneLineJoin(Format02(d.day), t9);
    var t11 := ", " + t10;
    OneLineJoin(", ", t10);
    OneLineJoin(WeekdayNames[d.weekday], t11);
  }

  /** A rendered date fits exact_time with its terminator. */
  lemma ImfFixdateLength(d: ImfDate)
    requires Renderable(d)
    ensures |ImfFixdate(d)| < DateBufferCap
  {
    DecimalAtMostFourDigits(d.year);
    NamesOneLine();
  }

  /** A rendered date has no NUL, no line break, does not start with a blank, and fits exact_time. */
  lemma ImfFixdateShape(d: ImfDate)
    requires Renderable(d)
    ensures |ImfFixdate(d)| < DateBufferCap
    ensures OneLine(ImfFixdate(d))
    ensures ImfFixdate(d)[0] != ' '
  {
    ImfFixdateLength(d);
    ImfFixdateOneLine(d);
    NamesOneLine();
    assert ImfFixdate(d)[0] == WeekdayNames[d.weekday][0];
  }

  predicate IsAlpha(c: char) {
    'A' <= c <= 'Z' || 'a' <= c <= 'z'
  }

  /** Every month and weekday name is three letters. */
  lemma NamesAreWords()
    ensures forall i :: 0 <= i < 12 ==> |MonthNames[i]| == 3 && forall j :: 0 <= j < 3 ==> IsAlpha(MonthNames[i][j])
    ensures forall i :: 0 <= i < 7 ==> |WeekdayNames[i]| == 3 && forall j :: 0 <= j < 3 ==> IsAlpha(WeekdayNames[i][j])
  {
  }

  lemma ScanWordOfName(w: string, rest: string)
    requires |w| == 3 && forall j :: 0 <= j < 3 ==> IsAlpha(w[j])
    ensures ScanWord(w + rest, 3) == Some(Scanned(w, rest))
  {
    var s := w + rest;
    assert !IsSpace(s[0]) && !IsSpace(s[1]) && !IsSpace(s[2]);
    assert SkipSpace(s) == s;
    assert WordPrefix(s[3..], 0) == [];
    assert WordPrefix(s[2..], 1) == [s[2]] + WordPrefix(s[3..], 0);
    assert WordPrefix(s[1..], 2) == [s[1]] + WordPrefix(s[2..], 1);
    assert WordPrefix(s, 3) == [s[0]] + WordPrefix(s[1..], 2);
    assert WordPrefix(s, 3) == w;
    assert s[3..] == rest;
  }

  lemma ScanWordAfterBlank(s: string)
    ensures ScanWord(" " + s, 3) == ScanWord(s, 3)
  {
    assert (" " + s)[1..] == s;
  }

  lemma ScanIntAfterBlank(s: string)
    ensures ScanInt(" " + s) == ScanInt(s)
  {
    assert (" " + s)[1..] == s;
  }

  lemma ScanIntOfDigits(ds: string, rest: string)
    requires ds != [] && forall j :: 0 <= j < |ds| ==> IsDigit(ds[j])
    requires rest == [] || !IsDigit(rest[0])
    ensures ScanInt(ds + rest) == Some(Scanned(DigitsValue(ds), rest))
  {
    DigitLed(ds + rest);
    LeadingDigitsOfDigits(ds, rest);
    assert (ds + rest)[|ds|..] == rest;
  }

  lemma Format02Digits(n: int)
    requires 0 <= n <= 99
    ensures forall j :: 0 <= j < |Format02(n)| ==> IsDigit(Format02(n)[j])
    ensures DigitsValue(Format02(n)) == n
  {
    Format02RoundTrip(n);
    var s := Format02(n);
    assert s[..1][..0] == [];
    assert DigitsValue(s[..1]) == DigitValue(s[0]);
  }

  lemma ScanTwoDigits(n: int, rest: string)
    requires 0 <= n <= 99
    requires rest == [] || !IsDigit(rest[0])
    ensures ScanInt(Format02(n) + rest) == Some(Scanned(n, rest))
  {
    Format02Digits(n);
    ScanIntOfDigits(Format02(n), rest);
  }

  /** An ordinary character of the format matches itself and consumes just that character. */
  lemma ScanLiteralOf(c: char, s: string)
    ensures ScanLiteral([c] + s, c) == Some(s)
  {
    assert ([c] + s)[1..] == s;
  }

  /** The time part succeeds when its three numbers do, each of the first two followed by a colon. */
  lemma ScanTimeOfDaySteps(s: string, r1: string, a: string, r2: string, b: string, rest: string, hour: int, minute: int, second: int)
    requires ScanInt(s) == Some(Scanned(hour, r1)) && ScanLiteral(r1, ':') == Some(a)
    requires ScanInt(a) == Some(Scanned(minute, r2)) && ScanLiteral(r2, ':') == Some(b)
    requires ScanInt(b) == Some(Scanned(second, rest))
    ensures ScanTimeOfDay(s) == Some(Scanned(TimeOfDay(hour, minute, second), rest))
  {
  }

  lemma ScanTimeOfDayOf(hour: int, minute: int, second: int, rest: string)
    requires 0 <= hour <= 99 && 0 <= minute <= 99 && 0 <= second <= 99
    requires rest == [] || !IsDigit(rest[0])
    ensures ScanTimeOfDay(" " + (Format02(hour) + (":" + (Format02(minute) + (":" + (Format02(second) + rest))))))
         == Some(Scanned(TimeOfDay(hour, minute, second), rest))
  {
    var b := Format02(second) + rest;
    var a := Format02(minute) + (":" + b);
    var s := Format02(hour) + (":" + a);
    ScanIntAfterBlank(s);
    ScanTwoDigits(hour, ":" + a);
    ScanTwoDigits(minute, ":" + b);
    ScanTwoDigits(second, rest);
    ScanLiteralOf(':', a);
    ScanLiteralOf(':', b);
    ScanTimeOfDaySteps(" " + s, ":" + a, a, ":" + b, b, rest, hour, minute, second);
  }

  /** The date part succeeds when its words and numbers do, the weekday followed by a comma. */
  lemma ScanDayMonthYearSteps(s: string, r1: string, a: string, b: string, c: string, rest: string, day: int, month: string, year: int)
    requires ScanWord(s, 3).Some? && ScanWord(s, 3).value.rest == r1 && ScanLiteral(r1, ',') == Some(a)
    requires ScanInt(a) == Some(Scanned(day, b))
    requires ScanWord(b, 3) == Some(Scanned(month, c))
    requires ScanInt(c) == Some(Scanned(year, rest))
    ensures ScanDayMonthYear(s) == Some(Scanned(DayMonthYear(day, month, year), rest))
  {
  }

  lemma ScanDayMonthYearOf(d: ImfDate, rest: string)
    requires Renderable(d)
    requires rest == [] || !IsDigit(rest[0])
    ensures ScanDayMonthYear(WeekdayNames[d.weekday] + (", " + (Format02(d.day) + (" " + (MonthNames[d.month] + (" " + (Decimal(d.year) + rest)))))))
         == Some(Scanned(DayMonthYear(d.day, MonthNames[d.month], d.year), rest))
  {
    var c := Decimal(d.year) + rest;
    var b := MonthNames[d.month] + (" " + c);
    var a := Format02(d.day) + (" " + b);
    assert ", " + a == "," + (" " + a);
    NamesAreWords();
    ScanWordOfName(WeekdayNames[d.weekday], "," + (" " + a));
    ScanIntAfterBlank(a);
    ScanTwoDigits(d.day, " " + b);
    ScanWordAfterBlank(b);
    ScanWordOfName(MonthNames[d.month], " " + c);
    ScanIntAfterBlank(c);
    DecimalValue(d.year);
    ScanIntOfDigits(Decimal(d.year), rest);
    ScanLiteralOf(',', " " + a);
    ScanDayMonthYearSteps(WeekdayNames[d.weekday] + (", " + a), "," + (" " + a), " " + a, " " + b, " " + c, rest, d.day, MonthNames[d.month], d.year);
  }

  /** Scanning a rendered IMF-fixdate gives back the day, month name, year and time of day. */
  lemma ScanOfImfFixdate(d: ImfDate)
    requires Renderable(d)
    ensures ScanImfFixdate(ImfFixdate(d))
         == Some(DateFields(d.day, MonthNames[d.month], d.year, d.hour, d.minute, d.second))
  {
    var time := " " + (Format02(d.hour) + (":" + (Format02(d.minute) + (":" + (Format02(d.second) + " GMT")))));
    ScanDayMonthYearOf(d, time);
    ScanTimeOfDayOf(d.hour, d.minute, d.second, " GMT");
  }

  // ---------------------------------------------------------------------------
  // sync_time
  // ---------------------------------------------------------------------------

  /** The fields sync_time converts from the header block, when it converts them all. */
  function HeaderDate(headers: Option<string>): (r: Option<DateFields>)
    ensures headers.None? ==> r.None?
    ensures r.Some? ==> DateText(headers.value) != [] && 1 <= |r.value.month| <= 3
  {
    if headers.None? then None else ScanImfFixdate(DateText(headers.value))
  }

  /**
   The struct tm sync_time fills from the converted fields. timegm reads
   neither the weekday nor the other fields left over in current_time, so
   the weekday is given as 0 here.
   */
  function GmtTm(d: DateFields): (t: Tm)
    ensures t.year == d.year - 1900 && 0 <= t.mon <= 11
    ensures t.mday == d.day && t.hour == d.hour && t.min == d.minute && t.sec == d.second
    ensures NUL !in d.month && |d.month| <= 3 && d.month in MonthNames ==> MonthNames[t.mon] == d.month
    ensures NUL !in d.month && |d.month| <= 3 && d.month !in MonthNames ==> t.mon == 0
  {
    var t := Tm(d.year - 1900, MonthStrToIndex(d.month), d.day, d.hour, d.minute, d.second, 0);
    if NUL !in d.month && |d.month| <= 3 then MonthIndexOfWord(d.month); t else t
  }

  /**
   The local time sync_time stores for converted fields: the GMT instant
   they denote, shifted by the local offset and broken down by gmtime_r.
   */
  function LocalTime(d: DateFields): (t: Tm)
    ensures ValidTm(t)
    ensures ToSeconds(t) == ToSeconds(GmtTm(d)) + IstOffsetSeconds
  {
    FromSeconds(ToSeconds(GmtTm(d)) + IstOffsetSeconds)
  }

  /**
   sync_time: once per run, the Date header of the last response is
   converted, shifted by the local offset, normalised by gmtime_r, stored as
   the clock anchor and shown on the hour, minute, day, month and weekday
   labels. The display side's sync_epoch_time and last shown day are not
   touched.
   */
  function SyncTime(c: ClockState, headers: Option<string>): (r: ClockStep)
    ensures r.clock.syncEpoch == c.syncEpoch && r.clock.lastDisplayedDay == c.lastDisplayedDay
    ensures r.clock.timeSynced <==> c.timeSynced || HeaderDate(headers).Some?
    ensures !(!c.timeSynced && r.clock.timeSynced) ==> r == ClockStep(c, [])
    ensures !c.timeSynced && r.clock.timeSynced ==>
              && r.clock.current == LocalTime(HeaderDate(headers).value)
              && r.writes == HourMinuteWrites(r.clock.current) + DateWrites(r.clock.current)
  {
    if c.timeSynced || headers.None? then ClockStep(c, [])
    else
      var text := DateText(headers.value);
      if |text| == 0 then ClockStep(c, [])
      else match ScanImfFixdate(text)
        case None => ClockStep(c, [])
        case Some(d) =>
          var local := LocalTime(d);
          ClockStep(c.(timeSynced := true, current := local), HourMinuteWrites(local) + DateWrites(local))
  }

  /** Once the clock is synced, later headers change nothing. */
  lemma SyncTimeOnce(c: ClockState, h1: Option<string>, h2: Option<string>)
    ensures SyncTime(SyncTime(c, h1).clock, h2).writes == []
            || (!SyncTime(c, h1).clock.timeSynced && SyncTime(c, h1) == ClockStep(c, []))
  {
  }

  /** A successful conversion sets the clock to the GMT instant plus 5 h 30 min, normalised. */
  lemma SyncTimeOfDate(c: ClockState, headers: string, fields: DateFields)
    requires !c.timeSynced
    requires HeaderDate(Some(headers)) == Some(fields)
    ensures SyncTime(c, Some(headers)).clock.timeSynced
    ensures SyncTime(c, Some(headers)).clock.current == FromSeconds(ToSeconds(GmtTm(fields)) + IstOffsetSeconds)
  {
    assert SyncTime(c, Some(headers)).clock.current == LocalTime(fields);
  }

  /** A header block whose Date value is an IMF-fixdate converts to that date's fields. */
  lemma HeaderDateOfImfFixdate(headers: string, d: ImfDate)
    requires Renderable(d)
    requires DateText(headers) == ImfFixdate(d)
    ensures HeaderDate(Some(headers)) == Some(DateFields(d.day, MonthNames[d.month], d.year, d.hour, d.minute, d.second))
    ensures GmtTm(HeaderDate(Some(headers)).value) == Tm(d.year - 1900, d.month, d.day, d.hour, d.minute, d.second, 0)
  {
    ScanOfImfFixdate(d);
    MonthIndexOfName(d.month);
  }

  /**
   A header block whose Date value is an IMF-fixdate sets the clock to that
   instant plus 5 h 30 min, read in the month the abbreviation names.
   */
  lemma SyncTimeOfImfFixdate(c: ClockState, headers: string, d: ImfDate)
    requires !c.timeSynced && Renderable(d)
    requires DateText(headers) == ImfFixdate(d)
    ensures SyncTime(c, Some(headers)).clock.timeSynced
    ensures SyncTime(c, Some(headers)).clock.current
         == FromSeconds(ToSeconds(Tm(d.year - 1900, d.month, d.day, d.hour, d.minute, d.second, 0)) + IstOffsetSeconds)
  {
    var fields := DateFields(d.day, MonthNames[d.month], d.year, d.hour, d.minute, d.second);
    HeaderDateOfImfFixdate(headers, d);
    SyncTimeOfDate(c, headers, fields);
    assert GmtTm(fields) == Tm(d.year - 1900, d.month, d.day, d.hour, d.minute, d.second, 0);
  }

}

=== FILE: json_extract.dfy ===
/**
 The streaming field extractor: the two callbacks the JSON parser invokes
 once per key/value pair (json_callback for the geolocation document,
 json_weather_cb for the weather report) and the two payload wrappers
 (parse_json_payload, parse_json_weather_payload).

 The parser library itself is not part of this model. A run of it is
 described by a ParserRun: the entries it hands to the callback, in order,
 and whether it reports success. The wrappers take the parser as a function
 from the text they pass to it to such a run.
 */
module JsonExtract {
  import opened CStrings
  import opened State

  /** The value type tag of an entry; only the string tag is ever inspected. */
  datatype ValueType = StringValue | NumberValue | OtherValue

  /** One callback invocation: exactly the key bytes and value bytes the parser reports, and the value type. */
  datatype Entry = Entry(key: string, value: string, valueType: ValueType)

  /** One run of the parser over a text. */
  datatype ParserRun = ParserRun(entries: seq<Entry>, ok: bool)

  /** The local buffer `temp` the `loc` value is first copied into. */
  const LocBufferCap: nat := 64

  /** The geolocation key test: strncmp(key, name, |key|) == 0 && strlen(name) == |key|. */
  predicate KeyIs(key: string, name: string) {
    StrnEq(key, name, |key|) && |name| == |key|
  }

  /** The weather key test: strncmp(key, name, |key|) == 0 alone. */
  predicate KeyMatches(key: string, name: string) {
    StrnEq(key, name, |key|)
  }

  /** The geolocation key test accepts exactly the name itself. */
  lemma KeyIsExact(key: string, name: string)
    requires NUL !in name
    ensures KeyIs(key, name) <==> key == name
  {
    if |key| == |name| {
      StrnEqExactLength(key, name);
    }
  }

  /** For a key without NUL, the weather key test accepts exactly the prefixes of the name. */
  lemma KeyMatchesPrefix(key: string, name: string)
    requires NUL !in name && NUL !in key
    ensures KeyMatches(key, name) <==> key <= name
  {
    StrnEqAgainstName(key, name);
    assert forall j :: 0 <= j < |key| ==> key[j] != NUL;
    assert |name| < |key| ==> (name + [NUL])[|name|] != key[|name|];
  }

  // ---------------------------------------------------------------------------
  // Geolocation callback
  // ---------------------------------------------------------------------------

  /**
   The `loc` branch: the value is copied into a 64-byte buffer, split at the
   first comma of that copy, and both halves are copied into the latitude and
   longitude buffers. Without a comma nothing changes.
   */
  function SplitLoc(f: Extracted, value: string): (r: Extracted)
    ensures Fits(f) ==> Fits(r)
    ensures r.timezone == f.timezone && r.city == f.city && SameWeather(r, f)
    ensures ',' !in BoundedCopy(value, LocBufferCap) ==> r == f
    ensures var temp := BoundedCopy(value, LocBufferCap);
      forall i :: 0 <= i < |temp| && temp[i] == ',' && ',' !in temp[..i] ==>
        r == f.(latitude := Take(temp[..i], LatitudeCap - 1), longitude := Take(temp[i + 1..], LongitudeCap - 1))
  {
    var temp := BoundedCopy(value, LocBufferCap);
    match FindChar(temp, ',')
    case None => f
    case Some(i) =>
      FirstOccurrenceUnique(temp, ',', i);
      CStrOfNulFree(temp[..i]);
      CStrOfNulFree(temp[i + 1..]);
      f.(latitude := BoundedCopy(temp[..i], LatitudeCap),
         longitude := BoundedCopy(temp[i + 1..], LongitudeCap))
  }

  /** json_callback: match `loc`, `timezone` or `city` exactly and store the value. */
  function GeoCallback(f: Extracted, e: Entry): (r: Extracted)
    ensures Fits(f) ==> Fits(r)
    ensures SameWeather(r, f)
    ensures e.key == "loc" ==> r == SplitLoc(f, e.value)
    ensures e.key == "timezone" ==> r == f.(timezone := BoundedCopy(e.value, TimezoneCap))
    ensures e.key == "city" ==> r == f.(city := BoundedCopy(e.value, CityCap))
    ensures e.key != "loc" && e.key != "timezone" && e.key != "city" ==> r == f
  {
    KeyIsExact(e.key, "loc");
    KeyIsExact(e.key, "timezone");
    KeyIsExact(e.key, "city");
    if KeyIs(e.key, "loc") then SplitLoc(f, e.value)
    else if KeyIs(e.key, "timezone") then f.(timezone := BoundedCopy(e.value, TimezoneCap))
    else if KeyIs(e.key, "city") then f.(city := BoundedCopy(e.value, CityCap))
    else f
  }

  /**
   A `loc` value of the form "<lat>,<lon>" (no comma in <lat>, no NUL, short
   enough for the 64-byte buffer) yields <lat> and <lon>, each cut to the 15
   characters its buffer holds.
   */
  lemma LocSplitsAtFirstComma(f: Extracted, lat: string, lon: string)
    requires ',' !in lat
    requires NUL !in lat && NUL !in lon
    requires |lat| + 1 + |lon| < LocBufferCap
    ensures GeoCallback(f, Entry("loc", lat + "," + lon, StringValue))
      == f.(latitude := Take(lat, LatitudeCap - 1), longitude := Take(lon, LongitudeCap - 1))
  {
    LocCopiedWhole(lat, lon);
    FirstCommaAfter(lat, lon);
    CStrOfNulFree(lat);
    CStrOfNulFree(lon);
  }

  /** A short NUL-free `loc` value is copied into the local buffer whole. */
  lemma LocCopiedWhole(lat: string, lon: string)
    requires NUL !in lat && NUL !in lon
    requires |lat| + 1 + |lon| < LocBufferCap
    ensures BoundedCopy(lat + "," + lon, LocBufferCap) == lat + "," + lon
  {
    assert NUL !in lat + "," + lon;
    CStrOfNulFree(lat + "," + lon);
  }

  /** The first comma of "<lat>,<lon>" is the one after <lat> when <lat> has none. */
  lemma FirstCommaAfter(lat: string, lon: string)
    requires ',' !in lat
    ensures var v := lat + "," + lon;
            FindChar(v, ',') == Some(|lat|) && v[..|lat|] == lat && v[|lat| + 1..] == lon
  {
    var v := lat + "," + lon;
    assert v[..|lat|] == lat;
    assert v[|lat| + 1..] == lon;
    FindFirstOfAt(v, {','}, |lat|);
  }

  /** The value from the example response splits into the documented coordinates. */
  lemma LocExample(f: Extracted)
    ensures var r := GeoCallback(f, Entry("loc", "12.9719,77.5937", StringValue));
      r.latitude == "12.9719" && r.longitude == "77.5937"
  {
    assert "12.9719" + "," + "77.5937" == "12.9719,77.5937";
    LocSplitsAtFirstComma(f, "12.9719", "77.5937");
  }

  // ---------------------------------------------------------------------------
  // Weather callback
  // ---------------------------------------------------------------------------

  /**
   json_weather_cb: the first of five key tests that passes decides the field
   the value goes to; `time` is taken only for a string value.
   */
  function WeatherCallback(f: Extracted, e: Entry): (r: Extracted)
    ensures Fits(f) ==> Fits(r)
    ensures SameGeo(r, f)
  {
    if KeyMatches(e.key, "time") && e.valueType == StringValue then f.(time := BoundedCopy(e.value, TimeCap))
    else if KeyMatches(e.key, "temperature_2m") then f.(temperature := BoundedCopy(e.value, TemperatureCap))
    else if KeyMatches(e.key, "relative_humidity_2m") then f.(humidity := BoundedCopy(e.value, HumidityCap))
    else if KeyMatches(e.key, "wind_speed_10m") then f.(windSpeed := BoundedCopy(e.value, WindSpeedCap))
    else if KeyMatches(e.key, "weather_code") then f.(weatherCode := BoundedCopy(e.value, WeatherCodeCap))
    else f
  }

  /**
   For a key without NUL the weather callback is a prefix match: the value
   goes to the first field whose name the key is a prefix of (the time field
   only for a string value), and a key that is a prefix of no name changes
   nothing.
   */
  lemma WeatherKeyIsPrefix(f: Extracted, e: Entry)
    requires NUL !in e.key
    ensures var r := WeatherCallback(f, e);
      && (e.key <= "time" && e.valueType == StringValue ==> r == f.(time := BoundedCopy(e.value, TimeCap)))
      && (!(e.key <= "time" && e.valueType == StringValue) && e.key <= "temperature_2m" ==>
            r == f.(temperature := BoundedCopy(e.value, TemperatureCap)))
      && (!(e.key <= "time" && e.valueType == StringValue) && !(e.key <= "temperature_2m")
          && e.key <= "relative_humidity_2m" ==>
            r == f.(humidity := BoundedCopy(e.value, HumidityCap)))
      && (!(e.key <= "time" && e.valueType == StringValue) && !(e.key <= "temperature_2m")
          && !(e.key <= "relative_humidity_2m") && e.key <= "wind_speed_10m" ==>
            r == f.(windSpeed := BoundedCopy(e.value, WindSpeedCap)))
      && (!(e.key <= "time" && e.valueType == StringValue) && !(e.key <= "temperature_2m")
          && !(e.key <= "relative_humidity_2m") && !(e.key <= "wind_speed_10m") && e.key <= "weather_code" ==>
            r == f.(weatherCode := BoundedCopy(e.value, WeatherCodeCap)))
      && (!(e.key <= "time" && e.valueType == StringValue) && !(e.key <= "temperature_2m")
          && !(e.key <= "relative_humidity_2m") && !(e.key <= "wind_speed_10m") && !(e.key <= "weather_code") ==>
            r == f)
  {
    KeyMatchesPrefix(e.key, "time");
    KeyMatchesPrefix(e.key, "temperature_2m");
    KeyMatchesPrefix(e.key, "relative_humidity_2m");
    KeyMatchesPrefix(e.key, "wind_speed_10m");
    KeyMatchesPrefix(e.key, "weather_code");
  }

  /** Each of the five names sent by the weather service lands in its own field; `time` only as a string. */
  lemma WeatherNamesLandInTheirFields(f: Extracted, v: string, vt: ValueType)
    ensures WeatherCallback(f, Entry("time", v, StringValue)) == f.(time := BoundedCopy(v, TimeCap))
    ensures vt != StringValue ==> WeatherCallback(f, Entry("time", v, vt)) == f
    ensures WeatherCallback(f, Entry("temperature_2m", v, vt)) == f.(temperature := BoundedCopy(v, TemperatureCap))
    ensures WeatherCallback(f, Entry("relative_humidity_2m", v, vt)) == f.(humidity := BoundedCopy(v, HumidityCap))
    ensures WeatherCallback(f, Entry("wind_speed_10m", v, vt)) == f.(windSpeed := BoundedCopy(v, WindSpeedCap))
    ensures WeatherCallback(f, Entry("weather_code", v, vt)) == f.(weatherCode := BoundedCopy(v, WeatherCodeCap))
  {
    TimeKey(f, v, vt);
    TemperatureKey(f, v, vt);
    HumidityKey(f, v, vt);
    WindKey(f, v, vt);
    CodeKey(f, v, vt);
  }

  /** A NUL-free name passes its own key test. */
  lemma KeyMatchesItself(name: string)
    requires NUL !in name
    ensures KeyMatches(name, name)
  {
    KeyMatchesPrefix(name, name);
  }

  /** A key whose first character differs from the name's fails the key test. */
  lemma KeyMissesAtFirst(key: string, name: string)
    requires key != [] && name != [] && key[0] != name[0]
    ensures !KeyMatches(key, name)
  {
    assert At(key, 0) == key[0] && At(name, 0) == name[0];
  }

  /** A key that shares the first character with the name but not the second fails the key test. */
  lemma KeyMissesAtSecond(key: string, name: string)
    requires |key| >= 2 && |name| >= 2 && key[0] == name[0] && key[0] != NUL && key[1] != name[1]
    ensures !KeyMatches(key, name)
  {
    assert At(key, 0) == key[0] && At(name, 0) == name[0];
    assert At(Tail(key), 0) == key[1] && At(Tail(name), 0) == name[1];
    assert !StrnEq(Tail(key), Tail(name), |key| - 1);
  }

  /** `time` is a prefix of none of the four other names. */
  lemma TimeMissesOthers()
    ensures !KeyMatches("time", "temperature_2m") && !KeyMatches("time", "relative_humidity_2m")
    ensures !KeyMatches("time", "wind_speed_10m") && !KeyMatches("time", "weather_code")
  {
    KeyMissesAtSecond("time", "temperature_2m");
    KeyMissesAtFirst("time", "relative_humidity_2m");
    KeyMissesAtFirst("time", "wind_speed_10m");
    KeyMissesAtFirst("time", "weather_code");
  }

  /** `weather_code` is a prefix of none of the names tested before it. */
  lemma CodeMissesEarlier()
    ensures !KeyMatches("weather_code", "time") && !KeyMatches("weather_code", "temperature_2m")
    ensures !KeyMatches("weather_code", "relative_humidity_2m") && !KeyMatches("weather_code", "wind_speed_10m")
  {
    KeyMissesAtFirst("weather_code", "time");
    KeyMissesAtFirst("weather_code", "temperature_2m");
    KeyMissesAtFirst("weather_code", "relative_humidity_2m");
    KeyMissesAtSecond("weather_code", "wind_speed_10m");
  }

  lemma TimeKey(f: Extracted, v: string, vt: ValueType)
    ensures WeatherCallback(f, Entry("time", v, StringValue)) == f.(time := BoundedCopy(v, TimeCap))
    ensures vt != StringValue ==> WeatherCallback(f, Entry("time", v, vt)) == f
  {
    KeyMatchesItself("time");
    TimeMissesOthers();
  }

  lemma TemperatureKey(f: Extracted, v: string, vt: ValueType)
    ensures WeatherCallback(f, Entry("temperature_2m", v, vt)) == f.(temperature := BoundedCopy(v, TemperatureCap))
  {
    KeyMissesAtSecond("temperature_2m", "time");
    KeyMatchesItself("temperature_2m");
  }

  lemma HumidityKey(f: Extracted, v: string, vt: ValueType)
    ensures WeatherCallback(f, Entry("relative_humidity_2m", v, vt)) == f.(humidity := BoundedCopy(v, HumidityCap))
  {
    KeyMissesAtFirst("relative_humidity_2m", "time");
    KeyMissesAtFirst("relative_humidity_2m", "temperature_2m");
    KeyMatchesItself("relative_humidity_2m");
  }

  lemma WindKey(f: Extracted, v: string, vt: ValueType)
    ensures WeatherCallback(f, Entry("wind_speed_10m", v, vt)) == f.(windSpeed := BoundedCopy(v, WindSpeedCap))
  {
    KeyMissesAtFirst("wind_speed_10m", "time");
    KeyMissesAtFirst("wind_speed_10m", "temperature_2m");
    KeyMissesAtFirst("wind_speed_10m", "relative_humidity_2m");
    KeyMatchesItself("wind_speed_10m");
  }

  lemma CodeKey(f: Extracted, v: string, vt: ValueType)
    ensures WeatherCallback(f, Entry("weather_code", v, vt)) == f.(weatherCode := BoundedCopy(v, WeatherCodeCap))
  {
    CodeMissesEarlier();
    KeyMatchesItself("weather_code");
  }

  // ---------------------------------------------------------------------------
  // Folding the callbacks over a parser run
  // ---------------------------------------------------------------------------

  /** The geolocation callback applied to each entry in turn. */
  function FoldGeo(f: Extracted, es: seq<Entry>): (r: Extracted)
    ensures Fits(f) ==> Fits(r)
    ensures SameWeather(r, f)
    decreases |es|
  {
    if es == [] then f else GeoCallback(FoldGeo(f, es[..|es| - 1]), es[|es| - 1])
  }

  /** The weather callback applied to each entry in turn. */
  function FoldWeather(f: Extracted, es: seq<Entry>): (r: Extracted)
    ensures Fits(f) ==> Fits(r)
    ensures SameGeo(r, f)
    decreases |es|
  {
    if es == [] then f else WeatherCallback(FoldWeather(f, es[..|es| - 1]), es[|es| - 1])
  }

  /** No entry of `es` carries exactly the key `name`. */
  predicate NoKey(es: seq<Entry>, name: string) {
    forall j :: 0 <= j < |es| ==> es[j].key != name
  }

  /** Folding over one more entry applies the callback once more. */
  lemma FoldGeoSnoc(f: Extracted, es: seq<Entry>, e: Entry)
    ensures FoldGeo(f, es + [e]) == GeoCallback(FoldGeo(f, es), e)
  {
    assert (es + [e])[..|es|] == es;
  }

  /** Without a `timezone` or `city` entry those fields keep their value; otherwise the last such entry wins. */
  lemma {:induction false} FoldGeoLastWins(f: Extracted, es: seq<Entry>, e: Entry, rest: seq<Entry>)
    requires NoKey(rest, e.key)
    ensures e.key == "timezone" ==> FoldGeo(f, es + [e] + rest).timezone == BoundedCopy(e.value, TimezoneCap)
    ensures e.key == "city" ==> FoldGeo(f, es + [e] + rest).city == BoundedCopy(e.value, CityCap)
    decreases |rest|
  {
    if rest == [] {
      assert es + [e] + rest == es + [e];
      FoldGeoSnoc(f, es, e);
    } else {
      var init := rest[..|rest| - 1];
      var last := rest[|rest| - 1];
      assert es + [e] + rest == (es + [e] + init) + [last];
      assert NoKey(init, e.key) by {
        assert forall j :: 0 <= j < |init| ==> init[j] == rest[j];
      }
      assert last.key != e.key;
      FoldGeoSnoc(f, es + [e] + init, last);
      FoldGeoLastWins(f, es, e, init);
    }
  }

  /** With no entry named `timezone` or `city` those two fields are left as they were. */
  lemma {:induction false} FoldGeoKeepsUnnamed(f: Extracted, es: seq<Entry>)
    ensures NoKey(es, "timezone") ==> FoldGeo(f, es).timezone == f.timezone
    ensures NoKey(es, "city") ==> FoldGeo(f, es).city == f.city
    ensures NoKey(es, "loc") ==> FoldGeo(f, es).latitude == f.latitude && FoldGeo(f, es).longitude == f.longitude
    decreases |es|
  {
    if es != [] {
      FoldGeoKeepsUnnamed(f, es[..|es| - 1]);
      assert es[|es| - 1].key == es[..|es|][|es| - 1].key;
    }
  }

  /** Folding the weather callback over the same entries from the same weather fields gives the same weather fields. */
  lemma {:induction false} FoldWeatherRespectsWeather(f: Extracted, g: Extracted, es: seq<Entry>)
    requires SameWeather(f, g)
    ensures SameWeather(FoldWeather(f, es), FoldWeather(g, es))
    decreases |es|
  {
    if es != [] {
      FoldWeatherRespectsWeather(f, g, es[..|es| - 1]);
    }
  }

  /** No entry of `es` passes the weather key test for `name`. */
  predicate Misses(es: seq<Entry>, name: string) {
    forall j :: 0 <= j < |es| ==> !KeyMatches(es[j].key, name)
  }

  /** Folding over one more entry applies the weather callback once more. */
  lemma FoldWeatherSnoc(f: Extracted, es: seq<Entry>, e: Entry)
    ensures FoldWeather(f, es + [e]) == WeatherCallback(FoldWeather(f, es), e)
  {
    assert (es + [e])[..|es|] == es;
  }

  /** The five names the weather callback files. */
  predicate IsWeatherName(name: string) {
    name == "time" || name == "temperature_2m" || name == "relative_humidity_2m"
    || name == "wind_speed_10m" || name == "weather_code"
  }

  /** The field the weather callback files a name under (weather_code for any other name). */
  function WeatherField(f: Extracted, name: string): string {
    if name == "time" then f.time
    else if name == "temperature_2m" then f.temperature
    else if name == "relative_humidity_2m" then f.humidity
    else if name == "wind_speed_10m" then f.windSpeed
    else f.weatherCode
  }

  /** The size of that field's buffer. */
  function WeatherCap(name: string): nat {
    if name == "time" then TimeCap
    else if name == "temperature_2m" then TemperatureCap
    else if name == "relative_humidity_2m" then HumidityCap
    else if name == "wind_speed_10m" then WindSpeedCap
    else WeatherCodeCap
  }

  /** An entry that fails the key test for a name leaves that name's field alone. */
  lemma WeatherCallbackKeeps(f: Extracted, x: Entry, name: string)
    requires IsWeatherName(name) && !KeyMatches(x.key, name)
    ensures WeatherField(WeatherCallback(f, x), name) == WeatherField(f, name)
  {
  }

  /** The last entry that passes the key test for a weather name decides that name's field. */
  lemma {:induction false} FoldWeatherLastWinsField(f: Extracted, es: seq<Entry>, e: Entry, rest: seq<Entry>)
    requires IsWeatherName(e.key) && (e.key == "time" ==> e.valueType == StringValue)
    requires Misses(rest, e.key)
    ensures WeatherField(FoldWeather(f, es + [e] + rest), e.key) == BoundedCopy(e.value, WeatherCap(e.key))
    decreases |rest|
  {
    if rest == [] {
      assert es + [e] + rest == es + [e];
      FoldWeatherSnoc(f, es, e);
      WeatherNamesLandInTheirFields(FoldWeather(f, es), e.value, e.valueType);
    } else {
      var init := rest[..|rest| - 1];
      var last := rest[|rest| - 1];
      assert es + [e] + rest == (es + [e] + init) + [last];
      assert Misses(init, e.key) by {
        assert forall j :: 0 <= j < |init| ==> init[j] == rest[j];
      }
      FoldWeatherSnoc(f, es + [e] + init, last);
      WeatherCallbackKeeps(FoldWeather(f, es + [e] + init), last, e.key);
      FoldWeatherLastWinsField(f, es, e, init);
    }
  }

  /**
   An entry named after one of the five weather fields (`time` only as a
   string) decides that field unless a later entry passes the same key test:
   the last such entry wins.
   */
  lemma FoldWeatherLastWins(f: Extracted, es: seq<Entry>, e: Entry, rest: seq<Entry>)
    requires Misses(rest, e.key)
    ensures var r := FoldWeather(f, es + [e] + rest);
      && (e.key == "time" && e.valueType == StringValue ==> r.time == BoundedCopy(e.value, TimeCap))
      && (e.key == "temperature_2m" ==> r.temperature == BoundedCopy(e.value, TemperatureCap))
      && (e.key == "relative_humidity_2m" ==> r.humidity == BoundedCopy(e.value, HumidityCap))
      && (e.key == "wind_speed_10m" ==> r.windSpeed == BoundedCopy(e.value, WindSpeedCap))
      && (e.key == "weather_code" ==> r.weatherCode == BoundedCopy(e.value, WeatherCodeCap))
  {
    if IsWeatherName(e.key) && (e.key == "time" ==> e.valueType == StringValue) {
      FoldWeatherLastWinsField(f, es, e, rest);
    }
  }

  // ---------------------------------------------------------------------------
  // Payload wrappers
  // ---------------------------------------------------------------------------

  /** How a wrapper call ended. */
  datatype ParseOutcome = EmptyPayload | NoJsonObject | OutOfMemory | ParseFailed | Parsed

  /** The fields after parse_json_payload, how it ended, and the text it handed to the parser. */
  datatype GeoParse = GeoParse(fields: Extracted, outcome: ParseOutcome, parsedText: Option<string>)

  /**
   parse_json_payload: the payload is read as a C string. An empty one, or
   one without '}', changes nothing; otherwise the text up to and including
   the first '}' is parsed, and whatever the callback stored stays stored
   even when the parser then reports an error.
   */
  function ParseJsonPayload(f: Extracted, payload: string, parser: string -> ParserRun): (r: GeoParse)
    ensures Fits(f) ==> Fits(r.fields)
    ensures SameWeather(r.fields, f)
    ensures CStr(payload) == [] ==> r == GeoParse(f, EmptyPayload, None)
    ensures CStr(payload) != [] && '}' !in CStr(payload) ==> r == GeoParse(f, NoJsonObject, None)
    ensures '}' in CStr(payload) <==> r.parsedText.Some?
    ensures r.parsedText.Some? ==>
      var t := r.parsedText.value;
      && t != [] && t <= CStr(payload) && t[|t| - 1] == '}' && '}' !in t[..|t| - 1]
      && r.fields == FoldGeo(f, parser(t).entries)
      && (r.outcome == Parsed <==> parser(t).ok)
      && (r.outcome == ParseFailed <==> !parser(t).ok)
  {
    var text := CStr(payload);
    if |text| == 0 then GeoParse(f, EmptyPayload, None)
    else match FindChar(text, '}')
      case None => GeoParse(f, NoJsonObject, None)
      case Some(i) =>
        var json := text[..i + 1];
        assert json[..|json| - 1] == text[..i];
        var run := parser(json);
        GeoParse(FoldGeo(f, run.entries), if run.ok then Parsed else ParseFailed, Some(json))
  }

  /** The fields and flags after parse_json_weather_payload, and how it ended. */
  datatype WeatherParse = WeatherParse(fields: Extracted, flags: Flags, outcome: ParseOutcome)

  /**
   parse_json_weather_payload: an empty payload, or a failed allocation of
   the copy, changes nothing. Otherwise all `|payload|` bytes are parsed, and
   the temperature, humidity, wind and rain flags are cleared whether the
   parse succeeded or not. The location flag is never touched.
   */
  function ParseJsonWeatherPayload(f: Extracted, flags: Flags, payload: string, mallocOk: bool,
                                   parser: string -> ParserRun): (r: WeatherParse)
    ensures Fits(f) ==> Fits(r.fields)
    ensures SameGeo(r.fields, f)
    ensures r.flags.location == flags.location
    ensures payload == [] ==> r == WeatherParse(f, flags, EmptyPayload)
    ensures payload != [] && !mallocOk ==> r == WeatherParse(f, flags, OutOfMemory)
    ensures payload != [] && mallocOk ==>
      && r.fields == FoldWeather(f, parser(payload).entries)
      && !r.flags.temperature && !r.flags.humidity && !r.flags.wind && !r.flags.rain
      && (r.outcome == Parsed <==> parser(payload).ok)
      && (r.outcome == ParseFailed <==> !parser(payload).ok)
  {
    if |payload| == 0 then WeatherParse(f, flags, EmptyPayload)
    else if !mallocOk then WeatherParse(f, flags, OutOfMemory)
    else
      var run := parser(payload);
      var cleared := flags.(temperature := false, humidity := false, wind := false, rain := false);
      WeatherParse(FoldWeather(f, run.entries), cleared, if run.ok then Parsed else ParseFailed)
  }
}

=== FILE: publish.dfy ===
/**
 The sensor publishers sync_temperature, sync_humidity, sync_windspeed,
 sync_rain and sync_location. Each receives its flag BY VALUE: it writes its
 label only when the flag is false, and the `flag = true` at its end changes
 a local copy, so no publisher ever changes a module flag. A publisher is
 therefore modelled as a function from the flag and the field to the label
 writes it makes.
 */
module Publish {
  import opened CStrings
  import opened State

  /** Weather codes that denote drizzle, freezing drizzle, rain, freezing rain, rain showers, or thunderstorm and hail. */
  const RainCodes: set<int> := {51, 53, 55, 56, 57, 61, 63, 65, 66, 67, 80, 81, 82, 95, 96, 99}

  /** The precipitation test of sync_rain, written as its chain of comparisons. */
  function IsRainCode(code: int): (r: bool)
    ensures r <==> code in RainCodes
  {
    || code == 51 || code == 53 || code == 55
    || code == 56 || code == 57
    || code == 61 || code == 63 || code == 65
    || code == 66 || code == 67
    || code == 80 || code == 81 || code == 82
    || code == 95 || code == 96 || code == 99
  }

  function SyncTemperature(flag: bool, temperature: string): (w: seq<LabelWrite>)
    ensures flag <==> w == []
    ensures !flag ==> w == [LabelWrite(Temperature, temperature)]
  {
    if !flag then [LabelWrite(Temperature, temperature)] else []
  }

  function SyncHumidity(flag: bool, humidity: string): (w: seq<LabelWrite>)
    ensures flag <==> w == []
    ensures !flag ==> w == [LabelWrite(Humidity, humidity)]
  {
    if !flag then [LabelWrite(Humidity, humidity)] else []
  }

  function SyncWindspeed(flag: bool, windSpeed: string): (w: seq<LabelWrite>)
    ensures flag <==> w == []
    ensures !flag ==> w == [LabelWrite(WindSpeed, windSpeed)]
  {
    if !flag then [LabelWrite(WindSpeed, windSpeed)] else []
  }

  /**
   sync_rain: the weather code text is read with atoi and the rain label
   shows "Y" for a precipitation code and "N" for any other value.
   */
  function SyncRain(flag: bool, weatherCode: string): (w: seq<LabelWrite>)
    ensures flag <==> w == []
    ensures !flag ==> w == [LabelWrite(Rain, if Atoi(weatherCode) in RainCodes then "Y" else "N")]
  {
    if !flag then
      var code := Atoi(weatherCode);
      if IsRainCode(code) then [LabelWrite(Rain, "Y")] else [LabelWrite(Rain, "N")]
    else []
  }

  /** sync_location: the city is formatted into a 40-byte buffer, so it must fit there. */
  function SyncLocation(flag: bool, city: string): (w: seq<LabelWrite>)
    requires |city| < 40
    ensures flag <==> w == []
    ensures !flag ==> w == [LabelWrite(Location, CStr(city))]
  {
    if !flag then [LabelWrite(Location, CStr(city))] else []
  }

  /** The saturation of atoi at the 32-bit bounds never changes the rain verdict. */
  lemma RainVerdictIgnoresSaturation(x: int)
    ensures SaturateLong(x) in RainCodes <==> x in RainCodes
  {
    if x < LongMin || x > LongMax {
      assert !IsRainCode(x) && !IsRainCode(SaturateLong(x));
    }
  }

  /** So the rain label depends only on the number the text starts with, whatever its size. */
  lemma RainLabelOfNumber(code: string)
    ensures SyncRain(false, code) == [LabelWrite(Rain, if DecimalPrefixValue(code) in RainCodes then "Y" else "N")]
  {
    RainVerdictIgnoresSaturation(DecimalPrefixValue(code));
  }

  /**
   For every code the service can send as a decimal number, the rain label
   says "Y" exactly for the sixteen precipitation codes.
   */
  lemma RainLabelForEveryCode(n: nat)
    requires n <= LongMax
    ensures SyncRain(false, Decimal(n)) == [LabelWrite(Rain, if n in RainCodes then "Y" else "N")]
  {
    AtoiOfDecimal(n);
  }

  /** A text that does not start with a number reads as code 0, which is no precipitation. */
  lemma NonNumericCodeIsDry(code: string)
    requires var t := SkipSpace(code); t == [] || (!IsDigit(t[0]) && t[0] != '-' && t[0] != '+')
    ensures SyncRain(false, code) == [LabelWrite(Rain, "N")]
  {
    var t := SkipSpace(code);
    assert AfterSign(t) == t;
    assert LeadingDigits(t) == [];
    assert DigitsValue([]) == 0;
    assert DecimalPrefixValue(code) == 0;
    assert !IsRainCode(0);
  }
}

=== FILE: scenarios.dfy ===
/**
 A worked example on concrete input: the time sync of a response dated
 Monday, 1 January 2024, 10:00:00 GMT, which the device shows as 15:30 IST.
 */
module Scenarios {
  import opened CStrings
  import opened Calendar
  import opened State
  import opened HttpDate

  /** The response date as an IMF-fixdate: Monday (1), the 1st, January (0), 2024, 10:00:00. */
  const ExampleDate: ImfDate := ImfDate(1, 1, 0, 2024, 10, 0, 0)

  /** "Mon, 01 Jan 2024 10:00:00 GMT", written field by field. */
  const ExampleValue: string :=
    "Mon" + (", " + ("01" + (" " + ("Jan" + (" " + ("2024" + (" " + ("10" + (":" + ("00" + (":" + ("00" + " GMT"))))))))))))

  /** A header block holding only the Date line. */
  const ExampleHeaders: string := "Date: " + ExampleValue + "\r\n"

  /** The local time sync_time should arrive at: 15:30:00 on Monday, 1 January 2024. */
  const ExampleLocal: Tm := Tm(124, 0, 1, 15, 30, 0, 1)

  /** The labels sync_time should show for it: "15", "30", "01", "Jan" and "Mon". */
  const ExampleWrites: seq<LabelWrite> :=
    [LabelWrite(Hour, "15"), LabelWrite(Minute, "30"),
     LabelWrite(Day, "01"), LabelWrite(Month, "Jan"), LabelWrite(Weekday, "Mon")]

  lemma ExampleNumbers()
    ensures Format02(1) == "01" && Format02(10) == "10" && Format02(0) == "00"
    ensures Decimal(2024) == "2024"
  {
    assert Decimal(2) == "2";
    assert Decimal(20) == Decimal(2) + "0";
    assert Decimal(202) == Decimal(20) + "2";
    assert Decimal(2024) == Decimal(202) + "4";
    assert Decimal(10) == Decimal(1) + "0";
  }

  /** The example date renders field by field. */
  lemma ExampleRenderingParts(d: ImfDate)
    requires d == ExampleDate
    ensures Renderable(d)
    ensures ImfFixdate(d) == ExampleValue
  {
    ExampleNumbers();
  }

  /** The example value is the rendering of the example date. */
  lemma ExampleRendering()
    ensures Renderable(ExampleDate) && ImfFixdate(ExampleDate) == ExampleValue
  {
    ExampleRenderingParts(ExampleDate);
  }

  /** A header block made of one Date line holding an IMF-fixdate yields that date's text. */
  lemma DateTextOfDateLine(d: ImfDate)
    requires Renderable(d)
    ensures DateText("Date: " + ImfFixdate(d) + "\r\n") == ImfFixdate(d)
  {
    var v := ImfFixdate(d);
    ImfFixdateShape(d);
    assert "" + "Date: " + v + "\r\n" + "" == "Date: " + v + "\r\n";
    DateTextOfHeaderLine("", v, "");
  }

  /** sync_time's extraction finds the example value in the example header block. */
  lemma ExampleDateText()
    ensures DateText(ExampleHeaders) == ImfFixdate(ExampleDate)
  {
    ExampleRendering();
    DateTextOfDateLine(ExampleDate);
  }

  /** 10:00 GMT plus 5 h 30 min is 15:30 the same Monday. */
  lemma ExampleLocalTime()
    ensures var d := ExampleDate;
            FromSeconds(ToSeconds(Tm(d.year - 1900, d.month, d.day, d.hour, d.minute, d.second, 0)) + IstOffsetSeconds) == ExampleLocal
  {
    assert DaysFromCivil(Date(2024, 1, 1)) == 19723;
    assert ValidTm(ExampleLocal);
    assert ToSeconds(Tm(124, 0, 1, 10, 0, 0, 0)) + IstOffsetSeconds == ToSeconds(ExampleLocal);
    FromSecondsOfValid(ExampleLocal);
  }

  /** A synced header block shows the hour, minute, day, month and weekday of the new clock. */
  lemma SyncTimeWritesOfImfFixdate(c: ClockState, headers: string, d: ImfDate, local: Tm)
    requires !c.timeSynced && Renderable(d)
    requires DateText(headers) == ImfFixdate(d)
    requires local == FromSeconds(ToSeconds(Tm(d.year - 1900, d.month, d.day, d.hour, d.minute, d.second, 0)) + IstOffsetSeconds)
    ensures var r := SyncTime(c, Some(headers));
            && r.clock.timeSynced && r.clock.current == local
            && r.writes == HourMinuteWrites(local) + DateWrites(local)
  {
    SyncTimeOfImfFixdate(c, headers, d);
  }

  /**
   Before the first sync, the example header block sets the clock to
   15:30 on Monday, 1 January, and shows "15", "30", "01", "Jan" and "Mon".
   */
  lemma SyncTimeExample(c: ClockState)
    requires !c.timeSynced
    ensures var r := SyncTime(c, Some(ExampleHeaders));
            && r.clock.timeSynced && r.clock.current == ExampleLocal
            && r.writes == ExampleWrites
  {
    ExampleDateText();
    ExampleLocalTime();
    ExampleLabels();
    SyncTimeWritesOfImfFixdate(c, ExampleHeaders, ExampleDate, ExampleLocal);
  }

  lemma ExampleLabels()
    ensures HourMinuteWrites(ExampleLocal) + DateWrites(ExampleLocal)
         == ExampleWrites
  {
    ExampleNumbers();
    assert Decimal(15) == Decimal(1) + "5" == "15";
    assert Decimal(30) == Decimal(3) + "0" == "30";
    assert Format02(15) == "15" && Format02(30) == "30";
    assert HourMinuteWrites(ExampleLocal) == [LabelWrite(Hour, "15"), LabelWrite(Minute, "30")];
    assert DateWrites(ExampleLocal) == [LabelWrite(Day, "01"), LabelWrite(Month, "Jan"), LabelWrite(Weekday, "Mon")];
  }
}

=== FILE: state.dfy ===
/**
 The module-level state of the weather station: the extracted text fields,
 the publish flags, the clock anchor, and the display label writes the
 operations emit.
 */
module State {
  import opened CStrings
  import opened Calendar

  /**
   The static character buffers the extractor fills, each held as the C text
   it contains. Geolocation fills the first four, the weather report the rest.
   */
  datatype Extracted = Extracted(
    latitude: string,
    longitude: string,
    timezone: string,
    city: string,
    time: string,
    temperature: string,
    humidity: string,
    windSpeed: string,
    weatherCode: string)

  const LatitudeCap: nat := 16
  const LongitudeCap: nat := 16
  const TimezoneCap: nat := 32
  const CityCap: nat := 16
  const TimeCap: nat := 32
  const TemperatureCap: nat := 16
  const HumidityCap: nat := 16
  const WindSpeedCap: nat := 16
  const WeatherCodeCap: nat := 16

  /** A C text that fits a buffer of `cap` bytes together with its terminator. */
  predicate FitsIn(s: string, cap: nat) {
    |s| < cap && NUL !in s
  }

  /** Every field fits its buffer. */
  predicate Fits(f: Extracted) {
    && FitsIn(f.latitude, LatitudeCap)
    && FitsIn(f.longitude, LongitudeCap)
    && FitsIn(f.timezone, TimezoneCap)
    && FitsIn(f.city, CityCap)
    && FitsIn(f.time, TimeCap)
    && FitsIn(f.temperature, TemperatureCap)
    && FitsIn(f.humidity, HumidityCap)
    && FitsIn(f.windSpeed, WindSpeedCap)
    && FitsIn(f.weatherCode, WeatherCodeCap)
  }

  /** The geolocation part of the fields agrees in two records. */
  predicate SameGeo(a: Extracted, b: Extracted) {
    a.latitude == b.latitude && a.longitude == b.longitude && a.timezone == b.timezone && a.city == b.city
  }

  /** The weather part of the fields agrees in two records. */
  predicate SameWeather(a: Extracted, b: Extracted) {
    && a.time == b.time && a.temperature == b.temperature && a.humidity == b.humidity
    && a.windSpeed == b.windSpeed && a.weatherCode == b.weatherCode
  }

  /** Static buffers start zeroed: every field is the empty text. */
  const NoFields: Extracted := Extracted("", "", "", "", "", "", "", "", "")

  /** One flag per published quantity (temperatureSynced, humiditySynced, windSynced, rainSynced, locationSynced). */
  datatype Flags = Flags(temperature: bool, humidity: bool, wind: bool, rain: bool, location: bool)

  const InitialFlags: Flags := Flags(false, false, false, false, false)

  /** The display labels the core writes (ui_Temperature ... ui_Location, ui_HHH, ui_MMM, ui_Date, ui_Month, ui_Vaar). */
  datatype Label = Temperature | Humidity | WindSpeed | Rain | Location | Hour | Minute | Day | Month | Weekday

  /** One lv_label_set_text call: the label and the C text it is given. */
  datatype LabelWrite = LabelWrite(target: Label, text: string)

  const MonthNames: seq<string> := ["Jan", "Feb", "Mar", "Apr", "May", "Jun", "Jul", "Aug", "Sep", "Oct", "Nov", "Dec"]
  const WeekdayNames: seq<string> := ["Sun", "Mon", "Tue", "Wed", "Thu", "Fri", "Sat"]

  /**
   The clock: `timeSynced` and the anchor `current` (time_synced and
   current_time of the network side), the instant the anchor was taken
   (sync_epoch_time of the display side) and the day last shown
   (last_displayed_day inside the tick).
   */
  datatype ClockState = ClockState(timeSynced: bool, current: Tm, syncEpoch: int, lastDisplayedDay: int)

  /** Start-up: not synced, a zeroed struct tm, sync_epoch_time 0, no day shown yet. */
  const InitialClock: ClockState := ClockState(false, Tm(0, 0, 0, 0, 0, 0, 0), 0, -1)

  /** A clock operation's new clock state and the label writes it made. */
  datatype ClockStep = ClockStep(clock: ClockState, writes: seq<LabelWrite>)

  /** The hour and minute labels, two digits each, for a broken-down time. */
  function HourMinuteWrites(t: Tm): seq<LabelWrite> {
    [LabelWrite(Hour, Format02(t.hour)), LabelWrite(Minute, Format02(t.min))]
  }

  /** The day, month-name and weekday-name labels for a normalised broken-down time. */
  function DateWrites(t: Tm): seq<LabelWrite>
    requires 0 <= t.mon <= 11 && 0 <= t.wday <= 6
  {
    [LabelWrite(Day, Format02(t.mday)), LabelWrite(Month, MonthNames[t.mon]), LabelWrite(Weekday, WeekdayNames[t.wday])]
  }
}
